=== FILE: README.md ===
# Bakery manager: a Dafny model of its core

The bakery manager is a desktop program that keeps four lists: ingredients,
products, orders and staff. It lets the baker:

- add and restock ingredients, and list those below their reorder level;
- add products, look up a product's price, and delete every product of a name;
- create an order against product stock;
- amend an order by adding more of a product;
- mark selected orders as sold, and delete an order;
- admit staff through a form with a numeric role id and a comma-separated
  shift list, and delete staff or ingredients by row index;
- produce a sales report: takings from completed orders, the number of
  orders, and the products ranked by units ordered.

This project models those operations in Dafny. Each operation is a pure
function from one bakery state (`Records.Bakery`) to the next, together
with the outcome the program reports. The properties below are proved
about the model.

Module layout:

- `Seqs`: first-match search, order-preserving filter, removal by position.
- `Dicts`: Python dictionaries as insertion-ordered entry lists.
  - `Get` is `d.get(k, 0)`.
  - `Bump` is `d[k] = d.get(k, 0) + q`.
- `Text`: the string handling the staff form relies on.
  - `Strip`, `Split` and `Join` are `str.strip()`, `str.split(',')` and `", ".join`.
  - `IsIntLiteral` is the shape of text `int()` accepts: a signed digit run
    of at most 4300 digits, with only `int()`'s own whitespace around it.
    That whitespace is `strip()`'s without the ASCII separators U+001C to U+001F.
- `Records`: the four record types, the state, and the by-name and by-id lookups.
- `Catalog`: add product, price lookup, delete products by name.
- `Inventory`: add and restock ingredients, the low-stock report, delete by index.
- `Orders`: create, amend, mark as sold, and delete orders.
- `Reports`: the sales report and the popular-products ranking.
- `Staffing`: staff admission and deletion.

## Model

| member | source | states |
|---|---|---|
| `Records.FindProduct` | main.py:162 | The lookup returns the first product with the name. It returns none exactly when no product has the name. |
| `Records.FindOrder` | main.py:901 | The lookup returns the first order with the id. It returns none exactly when no order has it. |
| `Records.FindRole` | main.py:1001 | The lookup returns the first staff member holding the role. It returns none exactly when no one holds it. |
| `Records.FindIngredient` | main.py:129-131 | The lookup returns the first ingredient with the name. It returns none exactly when there is none. |
| `Records.FindProductExact` | main.py:145 | The by-name lookup reaches position j if and only if product j has the name and no earlier product shares it. |
| `Catalog.ProductPrice` | main.py:161-163 | The price is 0 when no product has the name. Otherwise it is the price of the first product with that name. |
| `Catalog.AddProduct` | main.py:139-141 | The new product is appended after the existing products, which are kept in order. The other lists are untouched. |
| `Catalog.AddProductPrice` | main.py:139-141 | A product with a fresh name gets its own price. A duplicate name keeps the older product's price, which shadows the new one. Every other name keeps its price. |
| `Catalog.DeleteProduct` | main.py:451 | Every product with the name is removed. Every other product is kept with the same multiplicity and in the same order. The other lists are untouched. |
| `Catalog.DeleteProductPrice` | main.py:451 | After the deletion, the deleted name's price is 0. Every other name keeps its price. |
| `Inventory.AddIngredient` | main.py:124-126 | The new ingredient is appended after the existing ingredients, which are kept in order. The other lists are untouched. |
| `Inventory.Restock` | main.py:128-134 | Success is reported exactly when some ingredient has the name. Only the first such ingredient gains the quantity. On failure nothing changes. |
| `Inventory.LowStock` | main.py:136-137 | The report holds exactly the ingredients strictly below their reorder level, with their multiplicities, in inventory order. |
| `Inventory.LowStockAfterAdd` | main.py:124-126 | Adding an ingredient below its reorder level appends it to the report. Adding one at or above the level leaves the report unchanged. |
| `Inventory.PythonPosition` | main.py:1228 | Python indexing reaches a position exactly for indices from -n to n-1. A negative index counts from the end. |
| `Inventory.DeleteIngredientAt` | main.py:1226-1240 | An index Python accepts, negative ones included, removes that one ingredient and keeps the rest in order. Any other index changes nothing and reports an error. |
| `Inventory.DeleteLastIngredient` | main.py:1235 | Index -1 removes the last ingredient. |
| `Orders.CreateOrder` | main.py:143-159 | The order is accepted exactly when every line names a product whose first entry holds at least the quantity. On rejection nothing changes. On acceptance one Pending order is appended, with total Σ price × quantity. |
| `Orders.CreateOrderStock` | main.py:149-152 | On success, names, prices and recipes are unchanged. Each product loses exactly the quantity ordered under its name, or nothing if it is not first of its name. Products not ordered are untouched. |
| `Orders.DeductEffect` | main.py:150-152 | The deduction loop takes from each product exactly what the order claims from it. It changes nothing but stock. |
| `Orders.CreateOrderKeepsStockNonNegative` | main.py:144-152 | Non-negative stock stays non-negative after an order in which no product name appears twice. |
| `Orders.DeductConserves` | main.py:150-152 | When every line names a product, total stock falls by exactly the units ordered. |
| `Orders.CreateOrderConservesStock` | main.py:143-159 | After a successful order, the sum of product stock has fallen by the sum of the ordered quantities. |
| `Orders.OrderTotalSameCatalogue` | main.py:156 | An order total depends only on product names and prices, not on stock. |
| `Orders.CreateOrderKeepsTotalsAgreeing` | main.py:155-157 | If every order's total agrees with the price list, this still holds after an order is created, the new order included. |
| `Orders.AmendOrder` | main.py:882-934 | A refused amendment changes nothing. Any amendment leaves ingredients, staff, the number of orders, and product names, prices and recipes unchanged. |
| `Orders.AmendOrderOutcome` | main.py:887-915 | Each refusal fires exactly under its condition, checked in the form's order: missing field, then non-positive quantity, then unknown order, then unknown product, then short stock. Short stock reports the stock of the first product with the name. The amendment goes through exactly when all of these pass. |
| `Orders.AmendOrderEffect` | main.py:917-930 | An accepted amendment applies these changes and no others: (1) the first order with the id gains the quantity under the product's name; (2) its total rises by price × quantity; (3) its status becomes Updated; (4) the first product with the name loses the quantity; (5) all other orders are unchanged. |
| `Orders.AmendOrderKeepsStockNonNegative` | main.py:913-926 | The stock check keeps product stock non-negative through an amendment. |
| `Orders.OrderTotalBump` | main.py:917-923 | Adding q of product k to an order's items raises its price-list total by k's price × q. |
| `Orders.AmendOrderKeepsTotalsAgreeing` | main.py:917-923 | If every order's total agrees with the price list, this still holds after an amendment. |
| `Orders.MarkComplete` | main.py:1396-1399 | Exactly the orders whose id is selected become Completed. Nothing else about any order changes. |
| `Orders.MarkOrdersComplete` | main.py:1396-1399 | Each selected order's status becomes Completed and every other order keeps its status. No other field of any order changes, and the other lists are untouched. |
| `Orders.MarkCompleteIdempotent` | main.py:1396-1399 | Marking the same selection twice is the same as marking it once. |
| `Orders.DeleteOrder` | main.py:816-822 | The first order with the id is removed and the others keep their order. With no such order nothing changes. |
| `Reports.GenerateSalesReport` | main.py:169-175 | The takings plus the totals of the orders not yet Completed equal the sum of all totals. The order count is the number of orders, whatever their status. The ranking has one entry per product ordered, with its units, in non-increasing order. |
| `Reports.CompletedSalesSplit` | main.py:170 | Every order is either Completed or not, so the takings and the totals of the other orders add up to the sum of all totals. |
| `Reports.CompletedSalesAppend` | main.py:170 | Takings over two concatenated order lists are the sum of the takings of each. |
| `Reports.CompletedSalesBounds` | main.py:170 | With no negative totals, the takings lie between 0 and the sum of all totals. |
| `Reports.CreateOrderReport` | main.py:169-175 | Creating an order leaves the takings unchanged, because a new order is Pending. The order count rises by one exactly when the order is accepted. |
| `Reports.MarkCompleteSales` | main.py:1396-1399 | Marking orders as sold raises the takings by exactly the totals of the selected orders that were not already Completed. |
| `Reports.DeleteOrderSales` | main.py:816-822 | Deleting an order lowers the takings by its total if it was Completed, and leaves them unchanged otherwise. |
| `Reports.TallyCounts` | main.py:178-181 | The counting loop yields one entry per product ever ordered. Each count is the sum of that product's quantities over all orders. |
| `Reports.SortSorted` | main.py:182 | The sort leaves counts non-increasing. |
| `Reports.SortMultiset` | main.py:182 | The sort is a permutation of the tallied entries. |
| `Reports.SortKeys` | main.py:182 | The sort keeps the set of products and introduces no duplicate. |
| `Reports.PopularProducts` | main.py:177-182 | Popular products has exactly one entry per product ever ordered. Its count is the units ordered across all orders, and the list is in non-increasing order of count. |
| `Dicts.BumpGet` | main.py:918-921 | `d[k] = d.get(k, 0) + q` raises the value under k by q and leaves every other key's value unchanged. |
| `Dicts.BumpShape` | main.py:918-921 | An existing key keeps the length unchanged. A new key is appended at the end. |
| `Dicts.BumpInPlace` | main.py:918-921 | For a key already present, only the value of its entry changes, by q. The entry keeps its position and every other entry is untouched. |
| `Dicts.BumpNoDup` | main.py:181 | The update never creates a duplicate key. |
| `Dicts.BumpAllGet` | main.py:179-181 | Folding every line of an order into a tally adds, under each key, that key's quantity in the order. |
| `Dicts.GetUnique` | main.py:181 | In a dictionary without duplicate keys, the value at a position is what a lookup of its key returns. |
| `Text.Strip` | main.py:1007 | The result is a slice of the input with no whitespace at either end, and everything cut off on either side is whitespace. |
| `Text.StripEmpty` | main.py:1007 | Stripping leaves nothing exactly when the text is all whitespace. |
| `Text.StripStripped` | main.py:1007 | Stripping text that has no surrounding whitespace changes nothing. |
| `Text.Split` | main.py:1007 | Splitting always yields at least one piece, and no piece contains the separator. |
| `Text.JoinSplit` | main.py:1007 | Joining the pieces of a split with the separator gives the text back. |
| `Text.SplitJoin` | main.py:1007 | Splitting a join of separator-free pieces gives the pieces back. |
| `Text.ParseShifts` | main.py:1007-1008 | Every parsed shift is non-empty, stripped, and free of commas. No shift survives exactly when the text holds nothing but whitespace and commas. |
| `Text.ParseShiftsComma` | main.py:1007 | The shifts of text containing a comma are the shifts before that comma, followed by the shifts after it. |
| `Text.ParseShiftsPiece` | main.py:1007 | Comma-free text gives no shift if it is blank, and otherwise one shift, the text stripped. With the comma rule this fixes the parse of every text. |
| `Text.ParseShiftsOfDisplay` | main.py:1073 | Parsing the ", "-joined display of a shift list gives the same list back, for shifts of the kind the form itself produces. |
| `Text.DigitsAreIntLiteral` | main.py:990-994 | Any string of 1 to 4300 decimal digits passes the numeric-role check. |
| `Text.IntLiteralDigitBound` | main.py:990-994 | Text that passes the numeric-role check holds at most 4300 decimal digits. |
| `Text.TooManyDigits` | main.py:990-994 | A string of more than 4300 decimal digits fails the numeric-role check. |
| `Text.IntLiteralHasDigit` | main.py:990-994 | Text without a decimal digit never passes the numeric-role check. |
| `Text.SeparatorNotIntSpace` | main.py:990-994 | Text led by the separator U+001C strips to "12", yet it is not a number to `int()`: the numeric check does not use `strip()`'s whitespace. |
| `Staffing.AdmitStaff` | main.py:973-1015 | Each outcome has its own exact condition, checked in the form's order: (1) all fields empty; (2) name missing; (3) role missing; (4) role not numeric to `int()`, its 4300-digit limit included; (5) shift text missing; (6) role already held, naming its first holder; (7) no shift survives parsing; (8) otherwise admitted. The admitted member is appended with the parsed shifts. A refusal changes nothing. |
| `Staffing.AddStaff` | main.py:165-166 | The new member is appended after the existing staff, who are kept in order. The other lists are untouched. |
| `Staffing.AddStaffRoles` | main.py:1000-1004 | Adding a member keeps roles unique exactly when they were unique before and no one already holds the new role. |
| `Staffing.AdmitStaffKeepsRolesUnique` | main.py:1000-1004 | If no role is held twice, admission keeps it so. |
| `Staffing.DeleteStaffAt` | main.py:1097-1112 | Only an index in 0 ≤ index < number of staff removes a member, and it removes exactly that one. Any other index, negative ones included, changes nothing. |
| `Staffing.DeleteStaffFreesRole` | main.py:1106 | Deletion keeps roles unique, and no remaining member holds the deleted member's role. |

## Left out

- Reading and writing the JSON files (main.py:99-122) and `resource_path`: file I/O. The model starts from an in-memory state.
- The Tk interface: windows, trees, scrolling, placeholders and message boxes. Only the rules the form handlers apply are modelled.
- Confirmation dialogs before deletions: the model describes the confirmed case. A declined dialog changes nothing.
- The clearing of the GUI's selected-orders set after "Mark as Sold": that set is interface state.
- Order ids and timestamps come from the clock. `Orders.CreateOrder` takes them as parameters.
- Quantities, prices, totals and reorder levels are floats in the program and integers here. Float rounding is not modelled.
- `Orders.AmendOrderKeepsStockNonNegative`: holds for the integer model only. `float()` also accepts "nan" and "inf" (main.py:893). A quantity of "nan" passes both amendment checks (main.py:894-895, 913), because every comparison with NaN is false. The amendment then writes NaN into the order's items and total and into the product's stock (main.py:917-930). From then on, `Orders.CreateOrder`'s stock check (main.py:146) accepts any quantity of that product. NaN can also reach stock through the add-product form (main.py:561) and through restocking (main.py:1139-1140). A NaN ingredient is never reported low (main.py:136-137). Integers have no NaN or infinity, so the model does not show any of this.
- `Orders.AmendOrder`: the quantity is taken as already parsed. An empty quantity field ("All fields are required") and text that `float()` rejects ("Invalid quantity") are not modelled as inputs. A non-positive number still gives `InvalidQuantity`.
- `Text.IsIntLiteral` accepts ASCII decimal digits only. Python's `int()` also accepts other Unicode decimal digits; those are not modelled.
- `Text.IsIntLiteral` uses the default digit limit of Python 3.11 and later, 4300. `sys.set_int_max_str_digits` or the environment can change it, and earlier versions have no limit; neither case is modelled.
- The form fields' text (main.py:206-208) is stripped, and the placeholder is read as empty, before a handler sees it. `Staffing.AdmitStaff` takes those values as given.
- The product stock top-up form (main.py:1258-1278) is not modelled. It is the first-match update of `Inventory.Restock`, applied to products.
- Deleting one item from a sold order (main.py:1489-1499) is not modelled. It removes the item from the first order with the id but leaves the order's total as it was, so afterwards `Orders.TotalsAgree` no longer holds for that order.
- Orders loaded from disk with a status other than Pending, Updated or Completed: the program itself only ever writes those three.
- `Reports.SortSorted`: the stability of Python's sort, which keeps tied products in first-ordered order, is built into `Reports.Insert` but not stated as a proved property.
- Product recipes are stored and shown but never consumed from ingredient stock by the program. The model keeps them unchanged for the same reason.
- The earnings view (main.py:1505 onward) buckets completed orders by date using the clock. It is not modelled.

=== FILE: catalog.dfy ===
/** The product catalogue: adding a product, looking up its price, and
    deleting every product of a given name. */
module Catalog {
  import opened Seqs
  import opened Dicts
  import opened Records

  /** `get_product_price`: the price of the first product called `name`,
      and 0 when there is none. */
  function ProductPrice(ps: seq<Product>, name: string): (r: int)
    ensures (forall k :: 0 <= k < |ps| ==> ps[k].name != name) ==> r == 0
    ensures forall j :: 0 <= j < |ps| && ps[j].name == name && IsFirstNamed(ps, j) ==> r == ps[j].price
  {
    match FindProduct(ps, name)
    case None => 0
    case Some(i) => ps[i].price
  }

  /** A lookup sees the head of the list first. */
  lemma PriceCons(x: Product, rest: seq<Product>, name: string)
    ensures ProductPrice([x] + rest, name) == if x.name == name then x.price else ProductPrice(rest, name)
  {
    var ps := [x] + rest;
    if x.name != name {
      match FindProduct(rest, name)
      case None =>
      case Some(i) =>
        assert ps[i + 1] == rest[i];
        assert IsFirstNamed(ps, i + 1) by {
          forall k | 0 <= k < i + 1 ensures ps[k].name != ps[i + 1].name {
            if k > 0 { assert ps[k] == rest[k - 1]; }
          }
        }
    }
  }

  /** Prices depend only on names and prices, not on stock. */
  lemma {:induction false} PriceSameCatalogue(ps: seq<Product>, qs: seq<Product>, name: string)
    requires SameCatalogue(ps, qs)
    ensures ProductPrice(qs, name) == ProductPrice(ps, name)
  {
    match FindProduct(ps, name)
    case None =>
    case Some(i) =>
      assert IsFirstNamed(qs, i);
  }

  /** `add_product`: the new product goes to the end of the catalogue. */
  function AddProduct(b: Bakery, name: string, price: int, recipe: Dict, quantity: int): (r: Bakery)
    ensures |r.products| == |b.products| + 1 && r.products[..|b.products|] == b.products
    ensures r.products[|b.products|] == Product(name, price, recipe, quantity)
    ensures r.ingredients == b.ingredients && r.orders == b.orders && r.staff == b.staff
  {
    b.(products := b.products + [Product(name, price, recipe, quantity)])
  }

  /** Adding a product whose name is already taken changes no price: every
      lookup stops at the older product. A fresh name gets the new price,
      and the prices of other names are untouched. */
  lemma AddProductPrice(b: Bakery, name: string, price: int, recipe: Dict, quantity: int, m: string)
    ensures var ps := AddProduct(b, name, price, recipe, quantity).products;
      ProductPrice(ps, m) ==
        if m == name && FindProduct(b.products, m).None? then price
        else ProductPrice(b.products, m)
  {
    var ps := AddProduct(b, name, price, recipe, quantity).products;
    match FindProduct(b.products, m)
    case Some(i) =>
      assert ps[i] == b.products[i];
      assert IsFirstNamed(ps, i);
    case None =>
      if m == name {
        assert IsFirstNamed(ps, |b.products|);
      }
  }

  /** The test the product view's delete applies to each product. */
  function NamedOtherThan(name: string): (r: Product -> bool)
  {
    (p: Product) => p.name != name
  }

  /** Deleting a product in the product view removes every product of
      that name: `[p for p in products if p.name != name]`. */
  function DeleteProduct(b: Bakery, name: string): (r: Bakery)
    ensures forall p :: multiset(r.products)[p] == if p.name != name then multiset(b.products)[p] else 0
    ensures forall p :: p in r.products <==> p in b.products && p.name != name
    ensures IsSubsequence(r.products, b.products)
    ensures r.ingredients == b.ingredients && r.orders == b.orders && r.staff == b.staff
  {
    var kept := Filter(b.products, NamedOtherThan(name));
    FilterMultiset(b.products, NamedOtherThan(name));
    FilterSubsequence(b.products, NamedOtherThan(name));
    assert forall p :: p in kept <==> multiset(kept)[p] > 0;
    assert forall p :: p in b.products <==> multiset(b.products)[p] > 0;
    b.(products := kept)
  }

  /** After a deletion the name has no price any more, and every other name
      keeps the price it had. */
  lemma DeleteProductPrice(b: Bakery, name: string, m: string)
    ensures ProductPrice(DeleteProduct(b, name).products, m) ==
      if m == name then 0 else ProductPrice(b.products, m)
  {
    if m != name {
      FilterPrice(b.products, name, m);
    }
  }

  lemma {:induction false} FilterPrice(ps: seq<Product>, name: string, m: string)
    requires m != name
    ensures ProductPrice(Filter(ps, NamedOtherThan(name)), m) == ProductPrice(ps, m)
  {
    if |ps| > 0 {
      var keep := NamedOtherThan(name);
      var kept := Filter(ps, keep);
      var rest := Filter(ps[1..], keep);
      FilterPrice(ps[1..], name, m);
      PriceHead(ps, m);
      if keep(ps[0]) {
        assert kept == [ps[0]] + rest;
        assert kept[0] == ps[0] && kept[1..] == rest;
        PriceHead(kept, m);
      } else {
        assert kept == rest;
      }
    }
  }

  /** A lookup in a non-empty catalogue looks at its head first. */
  lemma PriceHead(ps: seq<Product>, name: string)
    requires |ps| > 0
    ensures ProductPrice(ps, name) == if ps[0].name == name then ps[0].price else ProductPrice(ps[1..], name)
  {
    PriceCons(ps[0], ps[1..], name);
    assert [ps[0]] + ps[1..] == ps;
  }
}

=== FILE: dicts.dfy ===
/** The program's Python dictionaries from a name to a number: an order's
    items (product name to quantity), a product's recipe (ingredient name to
    amount) and the popular-products tally (product name to count). A
    Python dict keeps insertion order, so it is modelled as a sequence of
    entries. */
module Dicts {

  datatype Entry = Entry(key: string, value: int)

  type Dict = seq<Entry>

  function Keys(d: Dict): (r: set<string>)
  {
    set i | 0 <= i < |d| :: d[i].key
  }

  /** What every dictionary the program builds satisfies: no key twice. */
  predicate NoDupKeys(d: Dict)
  {
    forall i, j :: 0 <= i < j < |d| ==> d[i].key != d[j].key
  }

  /** The sum of the values stored under `k`. On a dictionary without
      duplicate keys this is Python's `d.get(k, 0)`. */
  function Get(d: Dict, k: string): (r: int)
  {
    if |d| == 0 then 0
    else (if d[0].key == k then d[0].value else 0) + Get(d[1..], k)
  }

  lemma {:induction false} GetAbsent(d: Dict, k: string)
    requires k !in Keys(d)
    ensures Get(d, k) == 0
  {
    if |d| > 0 {
      assert d[0].key in Keys(d);
      assert Keys(d[1..]) <= Keys(d) by {
        forall x | x in Keys(d[1..]) ensures x in Keys(d) {
          var i :| 0 <= i < |d[1..]| && d[1..][i].key == x;
          assert d[i + 1].key == x;
        }
      }
      GetAbsent(d[1..], k);
    }
  }

  lemma {:induction false} KeysCons(d: Dict)
    requires |d| > 0
    ensures Keys(d) == {d[0].key} + Keys(d[1..])
  {
    forall x | x in Keys(d) ensures x in {d[0].key} + Keys(d[1..]) {
      var i :| 0 <= i < |d| && d[i].key == x;
      if i > 0 { assert d[1..][i - 1].key == x; }
    }
    forall x | x in Keys(d[1..]) ensures x in Keys(d) {
      var i :| 0 <= i < |d[1..]| && d[1..][i].key == x;
      assert d[i + 1].key == x;
    }
  }

  lemma HeadKeyFresh(d: Dict)
    requires NoDupKeys(d)
    requires |d| > 0
    ensures d[0].key !in Keys(d[1..])
  {
    forall j | 0 <= j < |d[1..]| ensures d[1..][j].key != d[0].key {
      assert d[1..][j] == d[j + 1];
    }
  }

  /** A dictionary without duplicates splits into a head whose key the
      tail does not repeat and a tail without duplicates, and back. */
  lemma NoDupCons(d: Dict)
    requires |d| > 0
    ensures NoDupKeys(d) <==> d[0].key !in Keys(d[1..]) && NoDupKeys(d[1..])
  {
    var t := d[1..];
    assert forall j :: 0 <= j < |t| ==> t[j] == d[j + 1];
    if d[0].key !in Keys(t) && NoDupKeys(t) {
      forall i, j | 0 <= i < j < |d| ensures d[i].key != d[j].key {
        assert d[j] == t[j - 1];
        if i == 0 {
          assert t[j - 1].key in Keys(t);
        } else {
          assert d[i] == t[i - 1];
        }
      }
    }
    if NoDupKeys(d) {
      HeadKeyFresh(d);
    }
  }

  /** In a dictionary without duplicates, the value at a position is what
      a lookup of its key returns. */
  lemma {:induction false} GetUnique(d: Dict, i: nat)
    requires NoDupKeys(d)
    requires i < |d|
    ensures Get(d, d[i].key) == d[i].value
  {
    if i == 0 {
      HeadKeyFresh(d);
      GetAbsent(d[1..], d[0].key);
    } else {
      assert d[1..][i - 1] == d[i];
      GetUnique(d[1..], i - 1);
    }
  }

  /** `d[k] = d.get(k, 0) + q`: the entry for `k` is updated where it
      stands, or a new entry is appended at the end. */
  function Bump(d: Dict, k: string, q: int): (r: Dict)
  {
    if |d| == 0 then [Entry(k, q)]
    else if d[0].key == k then [d[0].(value := d[0].value + q)] + d[1..]
    else [d[0]] + Bump(d[1..], k, q)
  }

  /** The bump adds `q` under `k` and leaves every other key's value alone. */
  lemma {:induction false} BumpGet(d: Dict, k: string, q: int, m: string)
    ensures Get(Bump(d, k, q), m) == Get(d, m) + (if m == k then q else 0)
  {
    if |d| > 0 {
      var r := Bump(d, k, q);
      if d[0].key == k {
        assert r[1..] == d[1..];
      } else {
        assert r[1..] == Bump(d[1..], k, q);
        BumpGet(d[1..], k, q, m);
      }
    }
  }

  /** The bump adds `k` to the keys and no other. */
  lemma {:induction false} BumpKeys(d: Dict, k: string, q: int)
    ensures Keys(Bump(d, k, q)) == Keys(d) + {k}
  {
    var r := Bump(d, k, q);
    if |d| == 0 {
      assert r[0].key in Keys(r);
    } else {
      KeysCons(d);
      KeysCons(r);
      if d[0].key == k {
        assert r[1..] == d[1..];
      } else {
        assert r[1..] == Bump(d[1..], k, q);
        BumpKeys(d[1..], k, q);
      }
    }
  }

  /** An existing key is updated in place; a new key goes to the end. */
  lemma {:induction false} BumpShape(d: Dict, k: string, q: int)
    ensures k in Keys(d) ==> |Bump(d, k, q)| == |d|
    ensures k !in Keys(d) ==> Bump(d, k, q) == d + [Entry(k, q)]
  {
    if |d| > 0 {
      KeysCons(d);
      if d[0].key != k {
        BumpShape(d[1..], k, q);
        assert d == [d[0]] + d[1..];
      }
    }
  }

  /** For a key already present, the bump changes only the value of its
      first entry, which keeps its position. */
  lemma {:induction false} BumpInPlace(d: Dict, k: string, q: int, i: nat)
    requires i < |d| && d[i].key == k
    requires forall m :: 0 <= m < i ==> d[m].key != k
    ensures Bump(d, k, q) == d[i := d[i].(value := d[i].value + q)]
  {
    if i > 0 {
      BumpInPlace(d[1..], k, q, i - 1);
      assert d[1..][i - 1 := d[i].(value := d[i].value + q)] == d[i := d[i].(value := d[i].value + q)][1..];
    }
  }

  /** The bump never introduces a duplicate key. */
  lemma {:induction false} BumpNoDup(d: Dict, k: string, q: int)
    requires NoDupKeys(d)
    ensures NoDupKeys(Bump(d, k, q))
  {
    var r := Bump(d, k, q);
    if |d| > 0 {
      NoDupCons(d);
      if d[0].key == k {
        assert r[1..] == d[1..];
        assert Keys(r[1..]) == Keys(d[1..]);
      } else {
        BumpNoDup(d[1..], k, q);
        BumpKeys(d[1..], k, q);
        assert r[1..] == Bump(d[1..], k, q);
      }
      NoDupCons(r);
    }
  }

  /** Adding every entry of `items` into `d` with `Bump`, front to back:
      the loop `for p, q in items.items(): d[p] = d.get(p, 0) + q`. */
  function BumpAll(d: Dict, items: Dict): (r: Dict)
    decreases |items|
  {
    if |items| == 0 then d
    else BumpAll(Bump(d, items[0].key, items[0].value), items[1..])
  }

  /** Folding a dictionary into another adds the two tallies key by key. */
  lemma {:induction false} BumpAllGet(d: Dict, items: Dict, m: string)
    ensures Get(BumpAll(d, items), m) == Get(d, m) + Get(items, m)
    decreases |items|
  {
    if |items| > 0 {
      BumpGet(d, items[0].key, items[0].value, m);
      BumpAllGet(Bump(d, items[0].key, items[0].value), items[1..], m);
    }
  }

  /** The folded dictionary has the keys of both and, when `d` had no
      duplicates, still has none. */
  lemma {:induction false} BumpAllKeys(d: Dict, items: Dict)
    ensures Keys(BumpAll(d, items)) == Keys(d) + Keys(items)
    ensures NoDupKeys(d) ==> NoDupKeys(BumpAll(d, items))
    decreases |items|
  {
    if |items| > 0 {
      KeysCons(items);
      BumpKeys(d, items[0].key, items[0].value);
      if NoDupKeys(d) { BumpNoDup(d, items[0].key, items[0].value); }
      BumpAllKeys(Bump(d, items[0].key, items[0].value), items[1..]);
    }
  }
}

=== FILE: inventory.dfy ===
/** The ingredient inventory: adding, restocking, the low-stock report and
    deleting an ingredient by its row index. */
module Inventory {
  import opened Seqs
  import opened Records

  /** `add_ingredient`: the new ingredient goes to the end of the list. */
  function AddIngredient(b: Bakery, name: string, quantity: int, unit: string, reorderLevel: int): (r: Bakery)
    ensures |r.ingredients| == |b.ingredients| + 1 && r.ingredients[..|b.ingredients|] == b.ingredients
    ensures r.ingredients[|b.ingredients|] == Ingredient(name, quantity, unit, reorderLevel)
    ensures r.products == b.products && r.orders == b.orders && r.staff == b.staff
  {
    b.(ingredients := b.ingredients + [Ingredient(name, quantity, unit, reorderLevel)])
  }

  /** `restock_ingredient`: add `quantity` to the first ingredient called
      `name` and report whether there was one. */
  function Restock(b: Bakery, name: string, quantity: int): (r: (Bakery, bool))
    ensures r.1 <==> exists k :: 0 <= k < |b.ingredients| && b.ingredients[k].name == name
    ensures !r.1 ==> r.0 == b
    ensures r.1 ==> |r.0.ingredients| == |b.ingredients|
    ensures r.1 ==> forall k :: 0 <= k < |b.ingredients| ==>
      r.0.ingredients[k] ==
        if FindIngredient(b.ingredients, name) == Some(k)
        then b.ingredients[k].(quantity := b.ingredients[k].quantity + quantity)
        else b.ingredients[k]
    ensures r.0.products == b.products && r.0.orders == b.orders && r.0.staff == b.staff
  {
    match FindIngredient(b.ingredients, name)
    case None => (b, false)
    case Some(i) =>
      var ing := b.ingredients[i];
      (b.(ingredients := b.ingredients[i := ing.(quantity := ing.quantity + quantity)]), true)
  }

  /** Below its reorder level (strictly). */
  predicate IsLow(ing: Ingredient)
  {
    ing.quantity < ing.reorderLevel
  }

  /** `check_low_stock`: the ingredients below their reorder level, in
      inventory order. */
  function LowStock(ings: seq<Ingredient>): (r: seq<Ingredient>)
    ensures forall x :: multiset(r)[x] == if x.quantity < x.reorderLevel then multiset(ings)[x] else 0
    ensures forall i :: 0 <= i < |r| ==> r[i].quantity < r[i].reorderLevel
    ensures IsSubsequence(r, ings)
  {
    FilterMultiset(ings, IsLow);
    FilterSatisfies(ings, IsLow);
    FilterSubsequence(ings, IsLow);
    Filter(ings, IsLow)
  }

  /** An ingredient added below its reorder level joins the end of the
      report; one added at or above it leaves the report as it was. */
  lemma LowStockAfterAdd(b: Bakery, name: string, quantity: int, unit: string, reorderLevel: int)
    ensures LowStock(AddIngredient(b, name, quantity, unit, reorderLevel).ingredients) ==
      LowStock(b.ingredients) +
        (if quantity < reorderLevel then [Ingredient(name, quantity, unit, reorderLevel)] else [])
  {
    var added := [Ingredient(name, quantity, unit, reorderLevel)];
    FilterAppend(b.ingredients, added, IsLow);
    assert Filter(added, IsLow) == (if IsLow(added[0]) then added else []) by {
      assert added[1..] == [];
    }
  }

  /** The position Python's `s[index]` reaches, when it reaches one:
      a negative index counts from the end. */
  function PythonPosition(n: nat, index: int): (r: Option<nat>)
    ensures r.Some? <==> -(n as int) <= index < n
    ensures r.Some? ==> r.value < n && (r.value == index || r.value == index + n)
  {
    if 0 <= index < n then Some(index)
    else if -(n as int) <= index < 0 then Some(index + n)
    else None
  }

  /** Deleting the ingredient at a row index: `del ingredients[index]`,
      where an index out of range is reported and changes nothing. */
  function DeleteIngredientAt(b: Bakery, index: int): (r: (Bakery, bool))
    ensures r.1 <==> -|b.ingredients| <= index < |b.ingredients|
    ensures !r.1 ==> r.0 == b
    ensures r.1 ==> |r.0.ingredients| == |b.ingredients| - 1
    ensures r.1 && index >= 0 ==>
      r.0.ingredients == b.ingredients[..index] + b.ingredients[index + 1..]
    ensures r.1 && index < 0 ==>
      r.0.ingredients == b.ingredients[..|b.ingredients| + index] + b.ingredients[|b.ingredients| + index + 1..]
    ensures r.0.products == b.products && r.0.orders == b.orders && r.0.staff == b.staff
  {
    match PythonPosition(|b.ingredients|, index)
    case None => (b, false)
    case Some(i) => (b.(ingredients := RemoveAt(b.ingredients, i)), true)
  }

  /** Index -1 removes the last ingredient. */
  lemma DeleteLastIngredient(b: Bakery)
    requires |b.ingredients| > 0
    ensures DeleteIngredientAt(b, -1) == (b.(ingredients := b.ingredients[..|b.ingredients| - 1]), true)
  {
    var s := b.ingredients;
    assert s[..|s| - 1] + s[|s|..] == s[..|s| - 1];
  }
}

=== FILE: orders.dfy ===
/** Orders: creating one against product stock (`create_order`), amending
    one (the rule behind the "Update Order & Product Quantity" form),
    marking a selection as sold, and deleting one by id. */
module Orders {
  import opened Seqs
  import opened Dicts
  import opened Records
  import opened Catalog

  /** The stock check `create_order` applies to one line: a product of that
      name exists and the first one has at least the quantity asked for. */
  predicate LineInStock(ps: seq<Product>, line: Entry)
  {
    match FindProduct(ps, line.key)
    case None => false
    case Some(i) => line.value <= ps[i].quantity
  }

  /** Every line of the order passes the stock check. */
  predicate AllInStock(ps: seq<Product>, items: Dict)
  {
    forall i :: 0 <= i < |items| ==> LineInStock(ps, items[i])
  }

  /** Every line names a product that is first of its name and has at
      least the quantity asked for. */
  predicate Stocked(ps: seq<Product>, items: Dict)
  {
    forall i :: 0 <= i < |items| ==> LineStocked(ps, items[i])
  }

  /** Some product is first of the line's name and holds at least the
      quantity asked for. */
  predicate LineStocked(ps: seq<Product>, line: Entry)
  {
    exists j :: 0 <= j < |ps| && ps[j].name == line.key && IsFirstNamed(ps, j) && line.value <= ps[j].quantity
  }

  /** One deduction: the first product of the line's name loses the line's
      quantity. */
  function DeductLine(ps: seq<Product>, line: Entry): (r: seq<Product>)
  {
    match FindProduct(ps, line.key)
    case None => ps
    case Some(i) => ps[i := ps[i].(quantity := ps[i].quantity - line.value)]
  }

  /** The deduction loop of `create_order`, line by line. */
  function Deduct(ps: seq<Product>, items: Dict): (r: seq<Product>)
    decreases |items|
  {
    if |items| == 0 then ps else Deduct(DeductLine(ps, items[0]), items[1..])
  }

  /** What an order takes from product `j`: the quantity ordered under its
      name when `j` is the product every lookup of that name reaches, and
      nothing otherwise. */
  function Claimed(ps: seq<Product>, items: Dict, j: nat): (r: int)
    requires j < |ps|
  {
    if IsFirstNamed(ps, j) then Get(items, ps[j].name) else 0
  }

  /** The total `create_order` computes: the sum over the lines of
      `get_product_price(name) * qty`. */
  function OrderTotal(ps: seq<Product>, items: Dict): (r: int)
  {
    if |items| == 0 then 0
    else ProductPrice(ps, items[0].key) * items[0].value + OrderTotal(ps, items[1..])
  }

  /** The sum of the quantities of an order's lines. */
  function Units(items: Dict): (r: int)
  {
    if |items| == 0 then 0 else items[0].value + Units(items[1..])
  }

  /** The sum of the products' stock. */
  function StockSum(ps: seq<Product>): (r: int)
  {
    if |ps| == 0 then 0 else ps[0].quantity + StockSum(ps[1..])
  }

  lemma SameCatalogueTrans(ps: seq<Product>, qs: seq<Product>, rs: seq<Product>)
    requires SameCatalogue(ps, qs) && SameCatalogue(qs, rs)
    ensures SameCatalogue(ps, rs)
  {
  }

  lemma SameCatalogueFirst(ps: seq<Product>, qs: seq<Product>, j: nat)
    requires SameCatalogue(ps, qs) && j < |ps|
    ensures IsFirstNamed(qs, j) == IsFirstNamed(ps, j)
  {
  }

  /** A deduction step touches only the stock of the first product of the
      line's name. */
  lemma DeductLineEffect(ps: seq<Product>, line: Entry)
    ensures SameCatalogue(ps, DeductLine(ps, line))
    ensures forall j :: 0 <= j < |ps| ==>
      DeductLine(ps, line)[j].quantity ==
        ps[j].quantity - (if IsFirstNamed(ps, j) && ps[j].name == line.key then line.value else 0)
  {
    forall j | 0 <= j < |ps| {
      FindProductExact(ps, line.key, j);
    }
  }

  /** The deduction loop takes from each product exactly what the order
      claims from it and changes nothing but stock. */
  lemma {:induction false} DeductEffect(ps: seq<Product>, items: Dict)
    ensures SameCatalogue(ps, Deduct(ps, items))
    ensures forall j :: 0 <= j < |ps| ==>
      Deduct(ps, items)[j].quantity == ps[j].quantity - Claimed(ps, items, j)
    decreases |items|
  {
    if |items| > 0 {
      var ps1 := DeductLine(ps, items[0]);
      DeductLineEffect(ps, items[0]);
      DeductEffect(ps1, items[1..]);
      SameCatalogueTrans(ps, ps1, Deduct(ps1, items[1..]));
      forall j | 0 <= j < |ps|
        ensures Deduct(ps, items)[j].quantity == ps[j].quantity - Claimed(ps, items, j)
      {
        SameCatalogueFirst(ps, ps1, j);
        assert Claimed(ps1, items[1..], j) == Claimed(ps, items[1..], j);
      }
    }
  }

  /** Stock stays non-negative under a deduction that every line's first
      product can cover, when no product name is ordered twice. */
  lemma ClaimCovered(ps: seq<Product>, items: Dict, j: nat)
    requires NoDupKeys(items)
    requires AllInStock(ps, items)
    requires j < |ps| && ps[j].quantity >= 0
    ensures ps[j].quantity - Claimed(ps, items, j) >= 0
  {
    if IsFirstNamed(ps, j) {
      if ps[j].name in Keys(items) {
        var k :| 0 <= k < |items| && items[k].key == ps[j].name;
        GetUnique(items, k);
        assert LineInStock(ps, items[k]);
        FindProductExact(ps, items[k].key, j);
      } else {
        GetAbsent(items, ps[j].name);
      }
    }
  }

  /** `create_order`: either every line is in stock, in which case one
      Pending order priced from the catalogue is appended (the stock
      effect is `CreateOrderStock`), or the call reports failure and
      nothing changes. */
  function CreateOrder(b: Bakery, customer: string, items: Dict, orderId: string, timestamp: string): (r: (Bakery, bool))
    ensures r.1 <==> Stocked(b.products, items)
    ensures !r.1 ==> r.0 == b
    ensures r.1 ==> r.0.orders == b.orders + [Order(orderId, customer, items, OrderTotal(b.products, items), Pending, timestamp)]
    ensures r.0.ingredients == b.ingredients && r.0.staff == b.staff
  {
    LineInStockWitness(b.products, items);
    if AllInStock(b.products, items) then
      var ps := Deduct(b.products, items);
      DeductKeepsTotal(b.products, items);
      var order := Order(orderId, customer, items, OrderTotal(ps, items), Pending, timestamp);
      (b.(products := ps, orders := b.orders + [order]), true)
    else
      (b, false)
  }

  /** A successful order leaves names, prices and recipes alone, takes from
      each product exactly what the order claims from it, and leaves every
      product whose name was not ordered as it was. */
  lemma CreateOrderStock(b: Bakery, customer: string, items: Dict, orderId: string, timestamp: string)
    requires CreateOrder(b, customer, items, orderId, timestamp).1
    ensures SameCatalogue(b.products, CreateOrder(b, customer, items, orderId, timestamp).0.products)
    ensures forall j :: 0 <= j < |b.products| ==>
      CreateOrder(b, customer, items, orderId, timestamp).0.products[j].quantity ==
        b.products[j].quantity - Claimed(b.products, items, j)
    ensures forall j :: 0 <= j < |b.products| && b.products[j].name !in Keys(items) ==>
      CreateOrder(b, customer, items, orderId, timestamp).0.products[j] == b.products[j]
  {
    var ps := CreateOrder(b, customer, items, orderId, timestamp).0.products;
    LineInStockWitness(b.products, items);
    assert ps == Deduct(b.products, items);
    DeductEffect(b.products, items);
    forall j | 0 <= j < |b.products| && b.products[j].name !in Keys(items)
      ensures ps[j] == b.products[j]
    {
      GetAbsent(items, b.products[j].name);
    }
  }

  /** The stock check of one line, spelled out with an explicit product. */
  lemma LineInStockIff(ps: seq<Product>, line: Entry)
    ensures LineInStock(ps, line) <==> LineStocked(ps, line)
  {
    forall j | 0 <= j < |ps| {
      FindProductExact(ps, line.key, j);
    }
  }

  lemma LineInStockWitness(ps: seq<Product>, items: Dict)
    ensures AllInStock(ps, items) <==> Stocked(ps, items)
  {
    forall i | 0 <= i < |items| {
      LineInStockIff(ps, items[i]);
    }
  }

  /** Deduction changes no price, so it changes no total. */
  lemma DeductKeepsTotal(ps: seq<Product>, items: Dict)
    ensures OrderTotal(Deduct(ps, items), items) == OrderTotal(ps, items)
  {
    DeductEffect(ps, items);
    OrderTotalSameCatalogue(ps, Deduct(ps, items), items);
  }

  /** Totals depend only on names and prices, not on stock. */
  lemma {:induction false} OrderTotalSameCatalogue(ps: seq<Product>, qs: seq<Product>, items: Dict)
    requires SameCatalogue(ps, qs)
    ensures OrderTotal(qs, items) == OrderTotal(ps, items)
  {
    if |items| > 0 {
      PriceSameCatalogue(ps, qs, items[0].key);
      OrderTotalSameCatalogue(ps, qs, items[1..]);
    }
  }

  /** Given non-negative stock and an order that names no product twice
      (a Python dict never does), no stock goes negative. */
  lemma CreateOrderKeepsStockNonNegative(b: Bakery, customer: string, items: Dict, orderId: string, timestamp: string)
    requires NoDupKeys(items)
    requires StockNonNegative(b.products)
    ensures StockNonNegative(CreateOrder(b, customer, items, orderId, timestamp).0.products)
  {
    var r := CreateOrder(b, customer, items, orderId, timestamp);
    if r.1 {
      LineInStockWitness(b.products, items);
      CreateOrderStock(b, customer, items, orderId, timestamp);
      forall j | 0 <= j < |b.products| ensures r.0.products[j].quantity >= 0 {
        ClaimCovered(b.products, items, j);
      }
    }
  }

  /** Replacing one product's stock moves the sum by the difference. */
  lemma {:induction false} StockSumUpdate(ps: seq<Product>, i: nat, q: int)
    requires i < |ps|
    ensures StockSum(ps[i := ps[i].(quantity := q)]) == StockSum(ps) - ps[i].quantity + q
  {
    if i > 0 {
      StockSumUpdate(ps[1..], i - 1, q);
      assert ps[i := ps[i].(quantity := q)][1..] == ps[1..][i - 1 := ps[i].(quantity := q)];
    }
  }

  /** Conservation: the units that leave stock are the units in the order,
      when every line names a product. */
  lemma {:induction false} DeductConserves(ps: seq<Product>, items: Dict)
    requires forall i :: 0 <= i < |items| ==> FindProduct(ps, items[i].key).Some?
    ensures StockSum(Deduct(ps, items)) == StockSum(ps) - Units(items)
    decreases |items|
  {
    if |items| > 0 {
      var line := items[0];
      var i := FindProduct(ps, line.key).value;
      var ps1 := ps[i := ps[i].(quantity := ps[i].quantity - line.value)];
      assert DeductLine(ps, line) == ps1;
      StockSumUpdate(ps, i, ps[i].quantity - line.value);
      assert SameCatalogue(ps, ps1);
      var rest := items[1..];
      forall k | 0 <= k < |rest| ensures FindProduct(ps1, rest[k].key).Some? {
        assert rest[k] == items[k + 1];
        FindProductSameCatalogue(ps, ps1, rest[k].key);
      }
      DeductConserves(ps1, rest);
      assert Units(items) == line.value + Units(rest);
    }
  }

  /** After a successful order, total stock has fallen by the units
      ordered. */
  lemma CreateOrderConservesStock(b: Bakery, customer: string, items: Dict, orderId: string, timestamp: string)
    requires CreateOrder(b, customer, items, orderId, timestamp).1
    ensures StockSum(CreateOrder(b, customer, items, orderId, timestamp).0.products) ==
      StockSum(b.products) - Units(items)
  {
    LineInStockWitness(b.products, items);
    assert AllInStock(b.products, items);
    DeductConserves(b.products, items);
  }

  /** An order's total agrees with the current price list. */
  predicate TotalAgrees(ps: seq<Product>, o: Order)
  {
    o.total == OrderTotal(ps, o.items)
  }

  predicate TotalsAgree(b: Bakery)
  {
    forall k :: 0 <= k < |b.orders| ==> TotalAgrees(b.products, b.orders[k])
  }

  /** A created order's total agrees with the price list, and the totals of
      earlier orders keep agreeing: creating an order changes no price. */
  lemma CreateOrderKeepsTotalsAgreeing(b: Bakery, customer: string, items: Dict, orderId: string, timestamp: string)
    requires TotalsAgree(b)
    ensures TotalsAgree(CreateOrder(b, customer, items, orderId, timestamp).0)
  {
    var r := CreateOrder(b, customer, items, orderId, timestamp);
    if r.1 {
      CreateOrderStock(b, customer, items, orderId, timestamp);
      forall k | 0 <= k < |r.0.orders| ensures TotalAgrees(r.0.products, r.0.orders[k]) {
        OrderTotalSameCatalogue(b.products, r.0.products, r.0.orders[k].items);
      }
    }
  }

  /** Adding `q` under `k` raises the total by `k`'s price times `q`. */
  lemma {:induction false} OrderTotalBump(ps: seq<Product>, d: Dict, k: string, q: int)
    ensures OrderTotal(ps, Bump(d, k, q)) == OrderTotal(ps, d) + ProductPrice(ps, k) * q
  {
    var price := ProductPrice(ps, k);
    if |d| == 0 {
    } else if d[0].key == k {
      assert Bump(d, k, q)[1..] == d[1..];
      assert price * (d[0].value + q) == price * d[0].value + price * q;
    } else {
      assert Bump(d, k, q)[1..] == Bump(d[1..], k, q);
      OrderTotalBump(ps, d[1..], k, q);
    }
  }

  /** Why an amendment was refused, or that it went through. */
  datatype AmendOutcome =
    | Amended
    | MissingField
    | InvalidQuantity
    | OrderNotFound
    | ProductNotFound
    | InsufficientStock(available: int)

  /** The order-amendment form: add `quantity` of a product to an existing
      order. The checks run in the form's order (`AmendOrderOutcome` says
      when each one fires); any failure leaves the state as it was. */
  function AmendOrder(b: Bakery, orderId: string, productName: string, quantity: int): (r: (Bakery, AmendOutcome))
    ensures !r.1.Amended? ==> r.0 == b
    ensures r.0.ingredients == b.ingredients && r.0.staff == b.staff
    ensures |r.0.orders| == |b.orders|
    ensures SameCatalogue(b.products, r.0.products)
  {
    if orderId == [] || productName == [] then (b, MissingField)
    else if quantity <= 0 then (b, InvalidQuantity)
    else match FindOrder(b.orders, orderId)
      case None => (b, OrderNotFound)
      case Some(oi) =>
        match FindProduct(b.products, productName)
        case None => (b, ProductNotFound)
        case Some(pi) =>
          var p := b.products[pi];
          if p.quantity < quantity then (b, InsufficientStock(p.quantity))
          else
            var o := b.orders[oi];
            var amended := o.(items := Bump(o.items, productName, quantity),
                              total := o.total + p.price * quantity,
                              status := Updated);
            (b.(orders := b.orders[oi := amended],
                products := b.products[pi := p.(quantity := p.quantity - quantity)]), Amended)
  }

  /** Which check refuses an amendment, and exactly when one goes through:
      both fields given, a positive quantity, an order with the id, and a
      first product of the name holding at least the quantity. */
  lemma AmendOrderOutcome(b: Bakery, orderId: string, productName: string, quantity: int)
    ensures var r := AmendOrder(b, orderId, productName, quantity).1;
      && (r == MissingField <==> orderId == [] || productName == [])
      && (r == InvalidQuantity <==> orderId != [] && productName != [] && quantity <= 0)
      && (r == OrderNotFound <==>
            orderId != [] && productName != [] && quantity > 0 &&
            forall k :: 0 <= k < |b.orders| ==> b.orders[k].orderId != orderId)
      && (r == ProductNotFound <==>
            orderId != [] && productName != [] && quantity > 0 &&
            (exists k :: 0 <= k < |b.orders| && b.orders[k].orderId == orderId) &&
            forall j :: 0 <= j < |b.products| ==> b.products[j].name != productName)
      && (r.InsufficientStock? <==>
            orderId != [] && productName != [] && quantity > 0 &&
            (exists k :: 0 <= k < |b.orders| && b.orders[k].orderId == orderId) &&
            FindProduct(b.products, productName).Some? &&
            b.products[FindProduct(b.products, productName).value].quantity < quantity)
      && (r.InsufficientStock? ==>
            FindProduct(b.products, productName).Some? &&
            r.available == b.products[FindProduct(b.products, productName).value].quantity &&
            r.available < quantity)
      && (r.Amended? <==>
            orderId != [] && productName != [] && quantity > 0 &&
            (exists k :: 0 <= k < |b.orders| && b.orders[k].orderId == orderId) &&
            LineStocked(b.products, Entry(productName, quantity)))
  {
    LineInStockIff(b.products, Entry(productName, quantity));
  }

  /** What an accepted amendment does: the first order with the id gains
      `quantity` units of the product, its total rises by the product's
      price times `quantity`, its status becomes Updated; the first product
      of the name loses `quantity` units; nothing else changes. */
  lemma AmendOrderEffect(b: Bakery, orderId: string, productName: string, quantity: int)
    requires AmendOrder(b, orderId, productName, quantity).1.Amended?
    ensures var r := AmendOrder(b, orderId, productName, quantity).0;
      var oi := FindOrder(b.orders, orderId).value;
      var pi := FindProduct(b.products, productName).value;
      var o, o' := b.orders[oi], r.orders[oi];
      && (forall k :: 0 <= k < |b.orders| && k != oi ==> r.orders[k] == b.orders[k])
      && o'.orderId == o.orderId && o'.customerName == o.customerName && o'.timestamp == o.timestamp
      && (forall n :: Get(o'.items, n) == Get(o.items, n) + (if n == productName then quantity else 0))
      && o'.total == o.total + ProductPrice(b.products, productName) * quantity
      && o'.status == Updated
      && (forall j :: 0 <= j < |b.products| ==>
            r.products[j].quantity == b.products[j].quantity - (if j == pi then quantity else 0))
  {
    var o := b.orders[FindOrder(b.orders, orderId).value];
    forall n { BumpGet(o.items, productName, quantity, n); }
  }

  /** An amendment never drives stock below zero. */
  lemma AmendOrderKeepsStockNonNegative(b: Bakery, orderId: string, productName: string, quantity: int)
    requires StockNonNegative(b.products)
    ensures StockNonNegative(AmendOrder(b, orderId, productName, quantity).0.products)
  {
    var r := AmendOrder(b, orderId, productName, quantity);
    if r.1.Amended? {
      AmendOrderEffect(b, orderId, productName, quantity);
    }
  }

  /** An amendment keeps every order's total in agreement with the price
      list: the amended order's total rises by exactly what its new line
      is worth. */
  lemma AmendOrderKeepsTotalsAgreeing(b: Bakery, orderId: string, productName: string, quantity: int)
    requires TotalsAgree(b)
    ensures TotalsAgree(AmendOrder(b, orderId, productName, quantity).0)
  {
    var r := AmendOrder(b, orderId, productName, quantity);
    if r.1.Amended? {
      AmendOrderEffect(b, orderId, productName, quantity);
      var oi := FindOrder(b.orders, orderId).value;
      OrderTotalBump(b.products, b.orders[oi].items, productName, quantity);
      assert TotalAgrees(b.products, r.0.orders[oi]);
      forall k | 0 <= k < |r.0.orders| ensures TotalAgrees(r.0.products, r.0.orders[k]) {
        OrderTotalSameCatalogue(b.products, r.0.products, r.0.orders[k].items);
        if k != oi {
          assert r.0.orders[k] == b.orders[k];
        }
      }
    }
  }

  /** "Mark as Sold": every order whose id is selected becomes Completed. */
  function MarkComplete(os: seq<Order>, selected: set<string>): (r: seq<Order>)
    ensures |r| == |os|
    ensures forall i :: 0 <= i < |os| ==>
      r[i] == if os[i].orderId in selected then os[i].(status := Completed) else os[i]
  {
    if |os| == 0 then []
    else
      [if os[0].orderId in selected then os[0].(status := Completed) else os[0]] +
      MarkComplete(os[1..], selected)
  }

  /** The "Mark as Sold" handler applied to the state: only orders change. */
  function MarkOrdersComplete(b: Bakery, selected: set<string>): (r: Bakery)
    ensures |r.orders| == |b.orders|
    ensures forall i :: 0 <= i < |b.orders| ==>
      r.orders[i].status == (if b.orders[i].orderId in selected then Completed else b.orders[i].status) &&
      r.orders[i].(status := b.orders[i].status) == b.orders[i]
    ensures r.ingredients == b.ingredients && r.products == b.products && r.staff == b.staff
  {
    b.(orders := MarkComplete(b.orders, selected))
  }

  /** Marking the same selection twice is the same as marking it once. */
  lemma MarkCompleteIdempotent(os: seq<Order>, selected: set<string>)
    ensures MarkComplete(MarkComplete(os, selected), selected) == MarkComplete(os, selected)
  {
  }

  /** Deleting an order in the order view: the first order with the id is
      removed; with no such order nothing changes. */
  function DeleteOrder(b: Bakery, orderId: string): (r: Bakery)
    ensures FindOrder(b.orders, orderId).None? ==> r == b
    ensures FindOrder(b.orders, orderId).Some? ==>
      var i := FindOrder(b.orders, orderId).value;
      && |r.orders| == |b.orders| - 1
      && r.orders[..i] == b.orders[..i]
      && r.orders[i..] == b.orders[i + 1..]
    ensures r.ingredients == b.ingredients && r.products == b.products && r.staff == b.staff
  {
    match FindOrder(b.orders, orderId)
    case None => b
    case Some(i) => b.(orders := RemoveAt(b.orders, i))
  }
}

=== FILE: records.dfy ===
/** The four kinds of record the bakery manager keeps and the in-memory
    state made of one list of each. Numbers that the program keeps as
    floats (stock, prices, totals) are integers here. */
module Records {
  import opened Seqs
  import opened Dicts

  datatype Ingredient = Ingredient(name: string, quantity: int, unit: string, reorderLevel: int)

  /** `recipe` maps an ingredient name to the amount one unit needs; it is
      kept and shown but never consumed. `quantity` is the stock of the
      finished product. */
  datatype Product = Product(name: string, price: int, recipe: Dict, quantity: int)

  /** The three statuses the program ever assigns to an order. */
  datatype Status = Pending | Updated | Completed

  /** `items` maps a product name to the quantity ordered; the id and the
      timestamp are supplied by the caller (the program derives them from
      the clock). */
  datatype Order = Order(orderId: string, customerName: string, items: Dict, total: int,
                         status: Status, timestamp: string)

  /** `role` is a numeric id kept as the text that was typed. */
  datatype Staff = Staff(name: string, role: string, shifts: seq<string>)

  datatype Bakery = Bakery(ingredients: seq<Ingredient>, products: seq<Product>,
                           orders: seq<Order>, staff: seq<Staff>)

  /** The first ingredient called `name`. */
  function FindIngredient(ings: seq<Ingredient>, name: string): (r: Option<nat>)
    ensures r.Some? ==> r.value < |ings| && ings[r.value].name == name
    ensures r.Some? ==> forall k :: 0 <= k < r.value ==> ings[k].name != name
    ensures r.None? <==> forall k :: 0 <= k < |ings| ==> ings[k].name != name
  {
    FirstWhere(ings, (x: Ingredient) => x.name == name)
  }

  /** The first product called `name`. */
  function FindProduct(ps: seq<Product>, name: string): (r: Option<nat>)
    ensures r.Some? ==> r.value < |ps| && ps[r.value].name == name
    ensures r.Some? ==> forall k :: 0 <= k < r.value ==> ps[k].name != name
    ensures r.None? <==> forall k :: 0 <= k < |ps| ==> ps[k].name != name
  {
    FirstWhere(ps, (x: Product) => x.name == name)
  }

  /** The first order whose id is `id`. */
  function FindOrder(os: seq<Order>, id: string): (r: Option<nat>)
    ensures r.Some? ==> r.value < |os| && os[r.value].orderId == id
    ensures r.Some? ==> forall k :: 0 <= k < r.value ==> os[k].orderId != id
    ensures r.None? <==> forall k :: 0 <= k < |os| ==> os[k].orderId != id
  {
    FirstWhere(os, (x: Order) => x.orderId == id)
  }

  /** The first staff member holding `role`. */
  function FindRole(staff: seq<Staff>, role: string): (r: Option<nat>)
    ensures r.Some? ==> r.value < |staff| && staff[r.value].role == role
    ensures r.Some? ==> forall k :: 0 <= k < r.value ==> staff[k].role != role
    ensures r.None? <==> forall k :: 0 <= k < |staff| ==> staff[k].role != role
  {
    FirstWhere(staff, (x: Staff) => x.role == role)
  }

  /** Product `j` is the one every by-name lookup of its name reaches. */
  predicate IsFirstNamed(ps: seq<Product>, j: nat)
    requires j < |ps|
  {
    forall k :: 0 <= k < j ==> ps[k].name != ps[j].name
  }

  /** The by-name lookup reaches exactly the product that is first of its
      name. */
  lemma FindProductExact(ps: seq<Product>, name: string, j: nat)
    requires j < |ps|
    ensures FindProduct(ps, name) == Some(j) <==> ps[j].name == name && IsFirstNamed(ps, j)
  {
    var f := FindProduct(ps, name);
    if ps[j].name == name && IsFirstNamed(ps, j) {
      assert f.Some?;
    }
  }

  /** The same products with the same names, prices and recipes in the same
      places; only stock may differ. */
  predicate SameCatalogue(ps: seq<Product>, qs: seq<Product>)
  {
    |ps| == |qs| &&
    forall j :: 0 <= j < |ps| ==>
      qs[j].name == ps[j].name && qs[j].price == ps[j].price && qs[j].recipe == ps[j].recipe
  }

  /** Lookups by name see only names, so they agree on catalogues that
      differ only in stock. */
  lemma FindProductSameCatalogue(ps: seq<Product>, qs: seq<Product>, name: string)
    requires SameCatalogue(ps, qs)
    ensures FindProduct(qs, name) == FindProduct(ps, name)
  {
    match FindProduct(ps, name)
    case None =>
    case Some(f) =>
      assert IsFirstNamed(qs, f);
      FindProductExact(qs, name, f);
  }

  predicate StockNonNegative(ps: seq<Product>)
  {
    forall j :: 0 <= j < |ps| ==> ps[j].quantity >= 0
  }
}

=== FILE: reports.dfy ===
/** The sales report: takings from completed orders, the number of orders,
    and the products ranked by the units ordered. */
module Reports {
  import opened Seqs
  import opened Dicts
  import opened Records
  import opened Orders

  /** The sum of the totals of `os`, whatever their status. */
  function Revenue(os: seq<Order>): (r: int)
  {
    if |os| == 0 then 0 else os[0].total + Revenue(os[1..])
  }

  predicate IsCompleted(o: Order)
  {
    o.status == Completed
  }

  /** `sum(order.total for order in orders if order.status == "Completed")` */
  function CompletedSales(os: seq<Order>): (r: int)
  {
    Revenue(Filter(os, IsCompleted))
  }

  predicate IsOpen(o: Order)
  {
    o.status != Completed
  }

  datatype SalesReport = SalesReport(totalSales: int, totalOrders: nat, popularProducts: Dict)

  /** `generate_sales_report`: the takings are all order totals except
      those of orders not yet Completed; the order count is every order,
      whatever its status; and the ranking is the popular-products list. */
  function GenerateSalesReport(b: Bakery): (r: SalesReport)
    ensures r.totalSales + Revenue(Filter(b.orders, IsOpen)) == Revenue(b.orders)
    ensures r.totalOrders == |b.orders|
    ensures NoDupKeys(r.popularProducts) && Keys(r.popularProducts) == ProductsOrdered(b.orders)
    ensures forall i :: 0 <= i < |r.popularProducts| ==>
      r.popularProducts[i].value == OrderedUnits(b.orders, r.popularProducts[i].key)
    ensures NonIncreasing(r.popularProducts)
  {
    CompletedSalesSplit(b.orders);
    SalesReport(CompletedSales(b.orders), |b.orders|, PopularProducts(b.orders))
  }

  /** Every order is either Completed or open, so the takings and the open
      orders' totals add up to the sum of all totals. */
  lemma {:induction false} CompletedSalesSplit(os: seq<Order>)
    ensures CompletedSales(os) + Revenue(Filter(os, IsOpen)) == Revenue(os)
  {
    if |os| > 0 {
      CompletedSalesSplit(os[1..]);
      var o := os[0];
      var done := Filter(os[1..], IsCompleted);
      var open := Filter(os[1..], IsOpen);
      if IsCompleted(o) {
        assert Filter(os, IsCompleted) == [o] + done;
        assert Filter(os, IsOpen) == open;
        assert ([o] + done)[1..] == done;
      } else {
        assert Filter(os, IsCompleted) == done;
        assert Filter(os, IsOpen) == [o] + open;
        assert ([o] + open)[1..] == open;
      }
    }
  }

  lemma {:induction false} RevenueAppend(a: seq<Order>, c: seq<Order>)
    ensures Revenue(a + c) == Revenue(a) + Revenue(c)
  {
    if |a| > 0 {
      assert (a + c)[1..] == a[1..] + c;
      RevenueAppend(a[1..], c);
    } else {
      assert a + c == c;
    }
  }

  /** Takings split over a concatenation of order lists. */
  lemma CompletedSalesAppend(a: seq<Order>, c: seq<Order>)
    ensures CompletedSales(a + c) == CompletedSales(a) + CompletedSales(c)
  {
    FilterAppend(a, c, IsCompleted);
    RevenueAppend(Filter(a, IsCompleted), Filter(c, IsCompleted));
  }

  /** Takings of a one-order list. */
  lemma CompletedSalesSingle(o: Order)
    ensures CompletedSales([o]) == if o.status == Completed then o.total else 0
  {
    assert [o][1..] == [];
    assert Filter([o], IsCompleted) == (if IsCompleted(o) then [o] else []);
    assert Revenue([o]) == o.total + Revenue([]);
  }

  /** With no negative totals, the takings lie between zero and the sum of
      all totals. */
  lemma {:induction false} CompletedSalesBounds(os: seq<Order>)
    requires forall i :: 0 <= i < |os| ==> os[i].total >= 0
    ensures 0 <= CompletedSales(os) <= Revenue(os)
  {
    if |os| > 0 {
      assert os == [os[0]] + os[1..];
      CompletedSalesAppend([os[0]], os[1..]);
      CompletedSalesSingle(os[0]);
      CompletedSalesBounds(os[1..]);
    }
  }

  /** A new order is Pending: creating one leaves the takings as they were
      and, on success, counts one more order. */
  lemma CreateOrderReport(b: Bakery, customer: string, items: Dict, orderId: string, timestamp: string)
    ensures var r := CreateOrder(b, customer, items, orderId, timestamp);
      && GenerateSalesReport(r.0).totalSales == GenerateSalesReport(b).totalSales
      && GenerateSalesReport(r.0).totalOrders == |b.orders| + (if r.1 then 1 else 0)
  {
    var r := CreateOrder(b, customer, items, orderId, timestamp);
    if r.1 {
      var o := r.0.orders[|b.orders|];
      CompletedSalesAppend(b.orders, [o]);
      CompletedSalesSingle(o);
    }
  }

  /** The orders "Mark as Sold" actually changes: selected and not yet
      Completed. */
  function SelectedOpen(selected: set<string>): (r: Order -> bool)
  {
    (o: Order) => o.orderId in selected && o.status != Completed
  }

  /** Marking orders as sold raises the takings by exactly the totals of the
      selected orders that were not already Completed. */
  lemma {:induction false} MarkCompleteSales(os: seq<Order>, selected: set<string>)
    ensures CompletedSales(MarkComplete(os, selected)) ==
      CompletedSales(os) + Revenue(Filter(os, SelectedOpen(selected)))
  {
    if |os| > 0 {
      var m := MarkComplete(os, selected);
      assert os == [os[0]] + os[1..];
      assert m == [m[0]] + m[1..];
      assert m[1..] == MarkComplete(os[1..], selected);
      CompletedSalesAppend([os[0]], os[1..]);
      CompletedSalesAppend([m[0]], m[1..]);
      CompletedSalesSingle(os[0]);
      CompletedSalesSingle(m[0]);
      MarkCompleteSales(os[1..], selected);
      var open := SelectedOpen(selected);
      assert Filter(os, open) == (if open(os[0]) then [os[0]] else []) + Filter(os[1..], open);
      if open(os[0]) {
        RevenueAppend([os[0]], Filter(os[1..], open));
        assert Revenue([os[0]]) == os[0].total + Revenue([]);
      } else {
        assert !(os[0].orderId in selected && os[0].status != Completed);
        assert m[0] == os[0];
        assert Filter(os, open) == Filter(os[1..], open);
      }
    }
  }

  /** Deleting an order takes its total out of the takings when it was
      Completed, and leaves them alone otherwise. */
  lemma DeleteOrderSales(b: Bakery, orderId: string)
    ensures CompletedSales(DeleteOrder(b, orderId).orders) ==
      CompletedSales(b.orders) -
        match FindOrder(b.orders, orderId)
        case None => 0
        case Some(i) => if b.orders[i].status == Completed then b.orders[i].total else 0
  {
    match FindOrder(b.orders, orderId)
    case None =>
    case Some(i) =>
      var os := b.orders;
      assert os == os[..i] + [os[i]] + os[i + 1..];
      assert DeleteOrder(b, orderId).orders == os[..i] + os[i + 1..];
      CompletedSalesAppend(os[..i] + [os[i]], os[i + 1..]);
      CompletedSalesAppend(os[..i], [os[i]]);
      CompletedSalesAppend(os[..i], os[i + 1..]);
      CompletedSalesSingle(os[i]);
  }

  /** Units of product `name` across all orders. */
  function OrderedUnits(os: seq<Order>, name: string): (r: int)
  {
    if |os| == 0 then 0 else Get(os[0].items, name) + OrderedUnits(os[1..], name)
  }

  /** Every product name that appears in some order. */
  function ProductsOrdered(os: seq<Order>): (r: set<string>)
  {
    if |os| == 0 then {} else Keys(os[0].items) + ProductsOrdered(os[1..])
  }

  /** The counting loop of `get_popular_products`, continuing from `d`. */
  function Tally(d: Dict, os: seq<Order>): (r: Dict)
    decreases |os|
  {
    if |os| == 0 then d else Tally(BumpAll(d, os[0].items), os[1..])
  }

  /** The tally holds, for each product ever ordered, one entry whose count
      is the units ordered across all orders. */
  lemma {:induction false} TallyCounts(d: Dict, os: seq<Order>)
    ensures Keys(Tally(d, os)) == Keys(d) + ProductsOrdered(os)
    ensures NoDupKeys(d) ==> NoDupKeys(Tally(d, os))
    ensures forall m :: Get(Tally(d, os), m) == Get(d, m) + OrderedUnits(os, m)
    decreases |os|
  {
    if |os| > 0 {
      var d1 := BumpAll(d, os[0].items);
      BumpAllKeys(d, os[0].items);
      forall m { BumpAllGet(d, os[0].items, m); }
      TallyCounts(d1, os[1..]);
    }
  }

  /** Counts never increase from left to right. */
  predicate NonIncreasing(d: Dict)
  {
    forall i, j :: 0 <= i < j < |d| ==> d[i].value >= d[j].value
  }

  /** Place `x` into a non-increasing list ahead of every entry with a count
      no larger than its own, so that among equal counts the earlier entry
      stays first. */
  function Insert(x: Entry, s: Dict): (r: Dict)
  {
    if |s| == 0 then [x]
    else if s[0].value <= x.value then [x] + s
    else [s[0]] + Insert(x, s[1..])
  }

  /** `sorted(d.items(), key=count, reverse=True)`, a stable sort. */
  function SortByCount(d: Dict): (r: Dict)
  {
    if |d| == 0 then [] else Insert(d[0], SortByCount(d[1..]))
  }

  /** Insertion adds exactly `x` to the entries. */
  lemma {:induction false} InsertMultiset(x: Entry, s: Dict)
    ensures multiset(Insert(x, s)) == multiset(s) + multiset{x}
  {
    if |s| > 0 {
      assert s == [s[0]] + s[1..];
      if s[0].value > x.value {
        InsertMultiset(x, s[1..]);
      }
    }
  }

  /** Insertion keeps the counts non-increasing. */
  lemma {:induction false} InsertSorted(x: Entry, s: Dict)
    requires NonIncreasing(s)
    ensures NonIncreasing(Insert(x, s))
  {
    if |s| > 0 && s[0].value > x.value {
      var r := Insert(x, s);
      var rest := Insert(x, s[1..]);
      assert NonIncreasing(s[1..]);
      InsertSorted(x, s[1..]);
      InsertBelow(x, s[1..], s[0].value);
      assert r == [s[0]] + rest;
    }
  }

  /** Inserting below a bound keeps every count below it. */
  lemma {:induction false} InsertBelow(x: Entry, s: Dict, bound: int)
    requires x.value <= bound
    requires forall i :: 0 <= i < |s| ==> s[i].value <= bound
    ensures forall i :: 0 <= i < |Insert(x, s)| ==> Insert(x, s)[i].value <= bound
  {
    if |s| > 0 && s[0].value > x.value {
      InsertBelow(x, s[1..], bound);
      assert Insert(x, s) == [s[0]] + Insert(x, s[1..]);
    }
  }

  /** Insertion adds `x`'s key, and no duplicate when the key is new. */
  lemma {:induction false} InsertKeys(x: Entry, s: Dict)
    ensures Keys(Insert(x, s)) == Keys(s) + {x.key}
    ensures NoDupKeys(s) && x.key !in Keys(s) ==> NoDupKeys(Insert(x, s))
  {
    var r := Insert(x, s);
    if |s| == 0 {
      assert r[0].key in Keys(r);
    } else if s[0].value <= x.value {
      KeysCons(r);
      assert r[1..] == s;
      NoDupCons(r);
    } else {
      var rest := Insert(x, s[1..]);
      KeysCons(s);
      NoDupCons(s);
      InsertKeys(x, s[1..]);
      assert r == [s[0]] + rest;
      KeysCons(r);
      assert r[1..] == rest;
      NoDupCons(r);
    }
  }

  /** The sort leaves the counts non-increasing. */
  lemma {:induction false} SortSorted(d: Dict)
    ensures NonIncreasing(SortByCount(d))
  {
    if |d| > 0 {
      SortSorted(d[1..]);
      InsertSorted(d[0], SortByCount(d[1..]));
    }
  }

  /** The sort is a permutation. */
  lemma {:induction false} SortMultiset(d: Dict)
    ensures multiset(SortByCount(d)) == multiset(d)
  {
    if |d| > 0 {
      SortMultiset(d[1..]);
      InsertMultiset(d[0], SortByCount(d[1..]));
      assert d == [d[0]] + d[1..];
    }
  }

  /** The sort keeps the keys and introduces no duplicate. */
  lemma {:induction false} SortKeys(d: Dict)
    ensures Keys(SortByCount(d)) == Keys(d)
    ensures NoDupKeys(d) ==> NoDupKeys(SortByCount(d))
  {
    if |d| > 0 {
      SortKeys(d[1..]);
      InsertKeys(d[0], SortByCount(d[1..]));
      KeysCons(d);
      NoDupCons(d);
    }
  }

  /** `get_popular_products`: one entry per product ever ordered, counting
      the units ordered across all orders, most ordered first. */
  function PopularProducts(os: seq<Order>): (r: Dict)
    ensures NoDupKeys(r)
    ensures Keys(r) == ProductsOrdered(os)
    ensures forall i :: 0 <= i < |r| ==> r[i].value == OrderedUnits(os, r[i].key)
    ensures NonIncreasing(r)
  {
    var counts := Tally([], os);
    TallyCounts([], os);
    SortSorted(counts);
    SortMultiset(counts);
    SortKeys(counts);
    var r := SortByCount(counts);
    assert forall i :: 0 <= i < |r| ==> r[i].value == OrderedUnits(os, r[i].key) by {
      forall i | 0 <= i < |r| ensures r[i].value == OrderedUnits(os, r[i].key) {
        assert r[i] in multiset(counts);
        var j :| 0 <= j < |counts| && counts[j] == r[i];
        GetUnique(counts, j);
      }
    }
    r
  }
}

=== FILE: seqs.dfy ===
/** Generic sequence helpers used across the bakery model: first-match
    search (Python's `next((x for x in s if p(x)), None)`), order-preserving
    filtering (a list comprehension with an `if`), and removal by position
    (`del s[i]`). */
module Seqs {

  datatype Option<T> = None | Some(value: T)

  /** Position of the first element satisfying `p`, or None. */
  function FirstWhere<T>(s: seq<T>, p: T -> bool): (r: Option<nat>)
    ensures r.Some? ==> r.value < |s| && p(s[r.value])
    ensures r.Some? ==> forall k :: 0 <= k < r.value ==> !p(s[k])
    ensures r.None? <==> forall k :: 0 <= k < |s| ==> !p(s[k])
  {
    if |s| == 0 then None
    else if p(s[0]) then Some(0)
    else match FirstWhere(s[1..], p)
      case None => None
      case Some(i) => Some(i + 1)
  }

  /** `a` can be obtained from `b` by deleting elements: `a` keeps the
      relative order of the elements it takes from `b`. */
  predicate IsSubsequence<T(==)>(a: seq<T>, b: seq<T>)
    decreases |b|
  {
    |a| == 0 ||
    (|b| > 0 &&
     ((a[0] == b[0] && IsSubsequence(a[1..], b[1..])) || IsSubsequence(a, b[1..])))
  }

  /** The elements of `s` that satisfy `p`, in their original order. */
  function Filter<T>(s: seq<T>, p: T -> bool): (r: seq<T>)
  {
    if |s| == 0 then []
    else (if p(s[0]) then [s[0]] else []) + Filter(s[1..], p)
  }

  /** Every kept element satisfies the test. */
  lemma {:induction false} FilterSatisfies<T>(s: seq<T>, p: T -> bool)
    ensures forall i :: 0 <= i < |Filter(s, p)| ==> p(Filter(s, p)[i])
  {
    if |s| > 0 {
      FilterSatisfies(s[1..], p);
    }
  }

  /** The filter keeps every copy of each passing element and no copy of
      any other. */
  lemma {:induction false} FilterMultiset<T(!new)>(s: seq<T>, p: T -> bool)
    ensures forall x :: multiset(Filter(s, p))[x] == if p(x) then multiset(s)[x] else 0
  {
    if |s| > 0 {
      FilterMultiset(s[1..], p);
      assert s == [s[0]] + s[1..];
    }
  }

  /** The kept elements are in their original order. */
  lemma {:induction false} FilterSubsequence<T>(s: seq<T>, p: T -> bool)
    ensures IsSubsequence(Filter(s, p), s)
  {
    if |s| > 0 {
      FilterSubsequence(s[1..], p);
      var rest := Filter(s[1..], p);
      if p(s[0]) {
        assert Filter(s, p) == [s[0]] + rest;
        assert ([s[0]] + rest)[1..] == rest;
      } else {
        assert Filter(s, p) == rest;
        SubsequenceDrop(rest, s);
      }
    }
  }

  lemma {:induction false} SubsequenceDrop<T>(a: seq<T>, s: seq<T>)
    requires |s| > 0
    requires IsSubsequence(a, s[1..])
    ensures IsSubsequence(a, s)
  {
  }

  /** Filtering distributes over concatenation. */
  lemma {:induction false} FilterAppend<T>(a: seq<T>, b: seq<T>, p: T -> bool)
    ensures Filter(a + b, p) == Filter(a, p) + Filter(b, p)
  {
    if |a| == 0 {
      assert a + b == b;
    } else {
      var head := if p(a[0]) then [a[0]] else [];
      assert (a + b)[0] == a[0];
      assert (a + b)[1..] == a[1..] + b;
      FilterAppend(a[1..], b, p);
      calc {
        Filter(a + b, p);
        head + Filter(a[1..] + b, p);
        head + (Filter(a[1..], p) + Filter(b, p));
        (head + Filter(a[1..], p)) + Filter(b, p);
      }
    }
  }

  /** `del s[i]` for an index already known to be in range. */
  function RemoveAt<T>(s: seq<T>, i: nat): (r: seq<T>)
    requires i < |s|
    ensures |r| == |s| - 1
    ensures forall k :: 0 <= k < i ==> r[k] == s[k]
    ensures forall k :: i <= k < |r| ==> r[k] == s[k + 1]
  {
    s[..i] + s[i + 1..]
  }

  lemma RemoveAtMultiset<T>(s: seq<T>, i: nat)
    requires i < |s|
    ensures multiset(RemoveAt(s, i)) + multiset{s[i]} == multiset(s)
  {
    assert s == s[..i] + [s[i]] + s[i + 1..];
  }
}

=== FILE: staffing.dfy ===
/** Staff: the admission rule of the "Add Staff Member" form (required
    fields, a numeric role that no one else holds, a comma-separated shift
    list) and deletion by row index. */
module Staffing {
  import opened Seqs
  import opened Records
  import opened Text

  /** `add_staff`: the new member goes to the end of the list. */
  function AddStaff(b: Bakery, name: string, role: string, shifts: seq<string>): (r: Bakery)
    ensures |r.staff| == |b.staff| + 1 && r.staff[..|b.staff|] == b.staff
    ensures r.staff[|b.staff|] == Staff(name, role, shifts)
    ensures r.ingredients == b.ingredients && r.products == b.products && r.orders == b.orders
  {
    b.(staff := b.staff + [Staff(name, role, shifts)])
  }

  /** No role is held by two members: the rule admission enforces. */
  predicate UniqueRoles(staff: seq<Staff>)
  {
    forall i, j :: 0 <= i < j < |staff| ==> staff[i].role != staff[j].role
  }

  /** Why an admission was refused, or that it went through. */
  datatype AdmitOutcome =
    | Admitted
    | AllFieldsRequired
    | NameRequired
    | RoleRequired
    | RoleNotNumeric
    | ShiftsRequired
    | RoleTaken(holder: string)
    | NoValidShift

  /** The form's field checks pass: name, role and shift text are all
      given, and the role is numeric. */
  predicate FieldsPass(name: string, role: string, shiftsText: string)
  {
    name != [] && role != [] && IsIntLiteral(role) && shiftsText != []
  }

  /** The "Add Staff Member" form's submit rule, checks in the form's order.
      The three texts are the field values as the form reads them (already
      stripped, with the placeholder read as empty). The role is stored as
      typed; only its shape is checked. */
  function AdmitStaff(b: Bakery, name: string, role: string, shiftsText: string): (r: (Bakery, AdmitOutcome))
    ensures !r.1.Admitted? ==> r.0 == b
    ensures r.1 == AllFieldsRequired <==> name == [] && role == [] && shiftsText == []
    ensures r.1 == NameRequired <==> name == [] && (role != [] || shiftsText != [])
    ensures r.1 == RoleRequired <==> name != [] && role == []
    ensures r.1 == RoleNotNumeric <==> name != [] && role != [] && !IsIntLiteral(role)
    ensures r.1 == ShiftsRequired <==> name != [] && role != [] && IsIntLiteral(role) && shiftsText == []
    ensures r.1.RoleTaken? <==>
      FieldsPass(name, role, shiftsText) && exists k :: 0 <= k < |b.staff| && b.staff[k].role == role
    ensures r.1.RoleTaken? ==>
      exists k :: 0 <= k < |b.staff| && b.staff[k].role == role && b.staff[k].name == r.1.holder &&
        forall m :: 0 <= m < k ==> b.staff[m].role != role
    ensures r.1 == NoValidShift <==>
      FieldsPass(name, role, shiftsText) && (forall k :: 0 <= k < |b.staff| ==> b.staff[k].role != role) &&
      ParseShifts(shiftsText) == []
    ensures r.1.Admitted? <==>
      FieldsPass(name, role, shiftsText) && (forall k :: 0 <= k < |b.staff| ==> b.staff[k].role != role) &&
      |ParseShifts(shiftsText)| > 0
    ensures r.1.Admitted? ==> r.0.staff == b.staff + [Staff(name, role, ParseShifts(shiftsText))]
    ensures r.1.Admitted? ==> forall i :: 0 <= i < |ParseShifts(shiftsText)| ==>
      var shift := ParseShifts(shiftsText)[i]; |shift| > 0 && IsStripped(shift) && ',' !in shift
    ensures r.0.ingredients == b.ingredients && r.0.products == b.products && r.0.orders == b.orders
  {
    if name == [] && role == [] && shiftsText == [] then (b, AllFieldsRequired)
    else if name == [] then (b, NameRequired)
    else if role == [] then (b, RoleRequired)
    else if !IsIntLiteral(role) then (b, RoleNotNumeric)
    else if shiftsText == [] then (b, ShiftsRequired)
    else match FindRole(b.staff, role)
      case Some(k) => (b, RoleTaken(b.staff[k].name))
      case None =>
        var shifts := ParseShifts(shiftsText);
        if shifts == [] then (b, NoValidShift)
        else (AddStaff(b, name, role, shifts), Admitted)
  }

  /** Admission keeps roles unique. */
  lemma AdmitStaffKeepsRolesUnique(b: Bakery, name: string, role: string, shiftsText: string)
    requires UniqueRoles(b.staff)
    ensures UniqueRoles(AdmitStaff(b, name, role, shiftsText).0.staff)
  {
    var r := AdmitStaff(b, name, role, shiftsText);
    if r.1.Admitted? {
      AppendFreshRole(b.staff, Staff(name, role, ParseShifts(shiftsText)));
    }
  }

  /** Adding a member keeps roles unique exactly when roles were unique
      before and no one already holds the new member's role. */
  lemma AddStaffRoles(b: Bakery, name: string, role: string, shifts: seq<string>)
    ensures UniqueRoles(AddStaff(b, name, role, shifts).staff) <==>
      UniqueRoles(b.staff) && forall k :: 0 <= k < |b.staff| ==> b.staff[k].role != role
  {
    var s := AddStaff(b, name, role, shifts).staff;
    if UniqueRoles(b.staff) && forall k :: 0 <= k < |b.staff| ==> b.staff[k].role != role {
      AppendFreshRole(b.staff, Staff(name, role, shifts));
    }
    if UniqueRoles(s) {
      assert forall k :: 0 <= k < |b.staff| ==> s[k] == b.staff[k];
      assert s[|b.staff|].role == role;
    }
  }

  lemma AppendFreshRole(staff: seq<Staff>, x: Staff)
    requires UniqueRoles(staff)
    requires forall k :: 0 <= k < |staff| ==> staff[k].role != x.role
    ensures UniqueRoles(staff + [x])
  {
    var s := staff + [x];
    forall i, j | 0 <= i < j < |s| ensures s[i].role != s[j].role {
      assert s[i] == staff[i];
      if j < |staff| { assert s[j] == staff[j]; }
    }
  }

  /** Deleting a staff member by row index: the index must be within the
      list (a negative index is refused, unlike Python's own indexing). */
  function DeleteStaffAt(b: Bakery, index: int): (r: (Bakery, bool))
    ensures r.1 <==> 0 <= index < |b.staff|
    ensures !r.1 ==> r.0 == b
    ensures r.1 ==> |r.0.staff| == |b.staff| - 1
    ensures r.1 ==> r.0.staff[..index] == b.staff[..index] && r.0.staff[index..] == b.staff[index + 1..]
    ensures r.0.ingredients == b.ingredients && r.0.products == b.products && r.0.orders == b.orders
  {
    if 0 <= index < |b.staff| then (b.(staff := RemoveAt(b.staff, index)), true)
    else (b, false)
  }

  /** Deletion keeps roles unique and frees the deleted member's role for
      a later admission. */
  lemma DeleteStaffFreesRole(b: Bakery, index: int)
    requires UniqueRoles(b.staff)
    requires 0 <= index < |b.staff|
    ensures UniqueRoles(DeleteStaffAt(b, index).0.staff)
    ensures forall k :: 0 <= k < |DeleteStaffAt(b, index).0.staff| ==>
      DeleteStaffAt(b, index).0.staff[k].role != b.staff[index].role
  {
    var s := DeleteStaffAt(b, index).0.staff;
    assert forall k :: 0 <= k < |s| ==> s[k] == if k < index then b.staff[k] else b.staff[k + 1];
  }
}

=== FILE: text.dfy ===
/** The string handling the staff form relies on: Python's `str.strip()`,
    `str.split(',')`, `", ".join(...)`, and the shape of text that `int()`
    accepts. */
module Text {

  /** The characters Python's `str.isspace()` accepts, which are the ones
      `str.strip()` removes. */
  predicate IsSpace(c: char)
  {
    c == ' ' || c == '\t' || c == '\n' || c == '\r' ||
    c == '\U{0B}' || c == '\U{0C}' ||
    ('\U{1C}' <= c <= '\U{1F}') ||
    c == '\U{85}' || c == '\U{A0}' || c == '\U{1680}' ||
    ('\U{2000}' <= c <= '\U{200A}') ||
    c == '\U{2028}' || c == '\U{2029}' || c == '\U{202F}' || c == '\U{205F}' ||
    c == '\U{3000}'
  }

  predicate AllSpace(s: string)
  {
    forall i :: 0 <= i < |s| ==> IsSpace(s[i])
  }

  /** The whitespace `int()` skips around a number. It is `IsSpace` without
      the ASCII separators U+001C to U+001F: `int()` turns only non-ASCII
      whitespace into a blank, then skips the six ASCII blanks
      (space, tab, line feed, vertical tab, form feed, carriage return). */
  predicate IsIntSpace(c: char)
  {
    IsSpace(c) && !('\U{1C}' <= c <= '\U{1F}')
  }

  predicate AllIntSpace(s: string)
  {
    forall i :: 0 <= i < |s| ==> IsIntSpace(s[i])
  }

  /** Neither end of `s` is whitespace. */
  predicate IsStripped(s: string)
  {
    |s| == 0 || (!IsSpace(s[0]) && !IsSpace(s[|s| - 1]))
  }

  /** The index of the first character at or after `i` that is not
      whitespace (or `|s|`). */
  function SkipSpaces(s: string, i: nat): (n: nat)
    requires i <= |s|
    ensures i <= n <= |s|
    ensures forall k :: i <= k < n ==> IsSpace(s[k])
    ensures n == |s| || !IsSpace(s[n])
    decreases |s| - i
  {
    if i < |s| && IsSpace(s[i]) then SkipSpaces(s, i + 1) else i
  }

  /** The index just after the last character before `j` that is not
      whitespace (or 0). */
  function SkipSpacesBack(s: string, j: nat): (n: nat)
    requires j <= |s|
    ensures n <= j
    ensures forall k :: n <= k < j ==> IsSpace(s[k])
    ensures n == 0 || !IsSpace(s[n - 1])
  {
    if j > 0 && IsSpace(s[j - 1]) then SkipSpacesBack(s, j - 1) else j
  }

  /** The scan stops at the first character that is not whitespace, and
      only there. */
  lemma SkipSpacesUnique(s: string, i: nat, n: nat)
    requires i <= n <= |s|
    requires forall k :: i <= k < n ==> IsSpace(s[k])
    requires n == |s| || !IsSpace(s[n])
    ensures SkipSpaces(s, i) == n
  {
  }

  /** `s.lstrip()`: the suffix left after the leading whitespace. */
  function TrimStart(s: string): (r: string)
  {
    s[SkipSpaces(s, 0)..]
  }

  /** `s.rstrip()`: the prefix left before the trailing whitespace. */
  function TrimEnd(s: string): (r: string)
  {
    s[..SkipSpacesBack(s, |s|)]
  }

  /** `s.strip()`: `s` with whitespace removed from both ends. */
  function Strip(s: string): (r: string)
    ensures IsStripped(r)
    ensures |r| <= |s|
    ensures exists i, j :: 0 <= i <= j <= |s| && r == s[i..j] && AllSpace(s[..i]) && AllSpace(s[j..])
  {
    var i := SkipSpaces(s, 0);
    var t := s[i..];
    var m := SkipSpacesBack(t, |t|);
    var j := i + m;
    assert AllSpace(s[..i]) by {
      forall k | 0 <= k < i ensures IsSpace(s[..i][k]) { assert s[..i][k] == s[k]; }
    }
    assert AllSpace(s[j..]) by {
      forall k | 0 <= k < |s| - j ensures IsSpace(s[j..][k]) { assert s[j..][k] == t[m + k]; }
    }
    assert s[i..j] == t[..m];
    TrimEnd(TrimStart(s))
  }

  /** `strip()` leaves nothing exactly when the text is all whitespace. */
  lemma StripEmpty(s: string)
    ensures Strip(s) == [] <==> AllSpace(s)
  {
    var n := SkipSpaces(s, 0);
    var t := s[n..];
    var m := SkipSpacesBack(t, |t|);
    assert Strip(s) == t[..m];
    if m == 0 {
      assert n == |s|;
    }
    if AllSpace(s) {
      assert n == |s|;
    }
  }

  /** What `strip()` keeps is the slice of `s` between its first and last
      characters that are not whitespace. */
  lemma StripSlice(s: string)
    ensures Strip(s) == s[SkipSpaces(s, 0)..SkipSpaces(s, 0) + SkipSpacesBack(TrimStart(s), |TrimStart(s)|)]
  {
  }

  lemma StripChars(s: string, c: char)
    requires c in Strip(s)
    ensures c in s
  {
    StripSlice(s);
    var i := SkipSpaces(s, 0);
    var k :| 0 <= k < |Strip(s)| && Strip(s)[k] == c;
    assert s[i + k] == c;
  }

  /** Stripping text that is already stripped changes nothing. */
  lemma StripStripped(s: string)
    requires IsStripped(s)
    ensures Strip(s) == s
  {
    if |s| > 0 {
      assert SkipSpaces(s, 0) == 0;
      assert s[0..] == s;
      assert SkipSpacesBack(s, |s|) == |s|;
    }
  }

  /** A leading whitespace character is removed by `strip()`. */
  lemma StripLeadingSpace(s: string)
    ensures Strip([' '] + s) == Strip(s)
  {
    var t := [' '] + s;
    var n := SkipSpaces(s, 0);
    var m := SkipSpaces(t, 0);
    assert forall k :: 0 < k < |t| ==> t[k] == s[k - 1];
    SkipSpacesUnique(t, 0, n + 1);
    assert t[m..] == s[n..];
  }

  /** `s.split(sep)`: the pieces between occurrences of `sep`; text without
      `sep` (including the empty text) is a single piece. */
  function Split(s: string, sep: char): (r: seq<string>)
    ensures |r| >= 1
    ensures forall i :: 0 <= i < |r| ==> sep !in r[i]
  {
    if |s| == 0 then [""]
    else
      var rest := Split(s[1..], sep);
      if s[0] == sep then [""] + rest
      else [[s[0]] + rest[0]] + rest[1..]
  }

  /** `sep.join(pieces)`. */
  function Join(pieces: seq<string>, sep: string): (r: string)
  {
    if |pieces| == 0 then ""
    else if |pieces| == 1 then pieces[0]
    else pieces[0] + sep + Join(pieces[1..], sep)
  }

  /** Joining the pieces of a split with the separator gives the text back. */
  lemma {:induction false} JoinSplit(s: string, sep: char)
    ensures Join(Split(s, sep), [sep]) == s
  {
    if |s| > 0 {
      var rest := Split(s[1..], sep);
      JoinSplit(s[1..], sep);
      if s[0] == sep {
        assert s == [sep] + s[1..];
      } else {
        assert s == [s[0]] + s[1..];
        if |rest| > 1 {
          assert rest == [rest[0]] + rest[1..];
        }
      }
    }
  }

  /** Splitting text that was joined from separator-free pieces gives the
      pieces back. */
  lemma {:induction false} SplitJoin(pieces: seq<string>, sep: char)
    requires |pieces| >= 1
    requires forall i :: 0 <= i < |pieces| ==> sep !in pieces[i]
    ensures Split(Join(pieces, [sep]), sep) == pieces
    decreases |pieces|
  {
    if |pieces| == 1 {
      SplitWithoutSep(pieces[0], [], sep);
      assert pieces[0] + [] == pieces[0];
    } else {
      SplitJoin(pieces[1..], sep);
      var tail := Join(pieces[1..], [sep]);
      SplitWithoutSep(pieces[0], [sep] + tail, sep);
      assert pieces[0] + [sep] + tail == pieces[0] + ([sep] + tail);
      assert ([sep] + tail)[1..] == tail;
      assert pieces == [pieces[0]] + pieces[1..];
    }
  }

  /** A separator-free prefix stays glued to the first piece of the rest. */
  lemma {:induction false} SplitWithoutSep(a: string, b: string, sep: char)
    requires sep !in a
    ensures |b| == 0 ==> Split(a + b, sep) == [a]
    ensures |b| > 0 && b[0] == sep ==> Split(a + b, sep) == [a] + Split(b[1..], sep)
  {
    if |a| > 0 {
      SplitWithoutSep(a[1..], b, sep);
      assert (a + b)[1..] == a[1..] + b;
      assert a == [a[0]] + a[1..];
    } else {
      assert a + b == b;
      if |b| > 0 && b[0] == sep {
        assert b == [sep] + b[1..];
      }
    }
  }

  /** The stripped, non-empty pieces, in order. */
  function StrippedNonEmpty(pieces: seq<string>): (r: seq<string>)
    ensures forall i :: 0 <= i < |r| ==> |r[i]| > 0 && IsStripped(r[i])
    ensures |r| <= |pieces|
  {
    if |pieces| == 0 then []
    else
      var t := Strip(pieces[0]);
      (if |t| > 0 then [t] else []) + StrippedNonEmpty(pieces[1..])
  }

  /** The staff form's shift list:
      `[shift.strip() for shift in text.split(',') if shift.strip()]`. */
  function ParseShifts(text: string): (r: seq<string>)
    ensures forall i :: 0 <= i < |r| ==> |r[i]| > 0 && IsStripped(r[i]) && ',' !in r[i]
    ensures r == [] <==> SpaceOr(text, ',')
  {
    var pieces := Split(text, ',');
    var r := StrippedNonEmpty(pieces);
    assert forall i :: 0 <= i < |r| ==> ',' !in r[i] by {
      StrippedNonEmptyAvoids(pieces, ',');
    }
    StrippedNonEmptyEmpty(pieces);
    SplitAllSpace(text, ',');
    r
  }

  /** Every character of `s` is whitespace or `sep`. */
  predicate SpaceOr(s: string, sep: char)
  {
    forall k :: 0 <= k < |s| ==> IsSpace(s[k]) || s[k] == sep
  }

  predicate PiecesAllSpace(pieces: seq<string>)
  {
    forall i :: 0 <= i < |pieces| ==> AllSpace(pieces[i])
  }

  /** Nothing survives the filter exactly when every piece is whitespace. */
  lemma {:induction false} StrippedNonEmptyEmpty(pieces: seq<string>)
    ensures StrippedNonEmpty(pieces) == [] <==> PiecesAllSpace(pieces)
  {
    if |pieces| > 0 {
      StrippedNonEmptyEmpty(pieces[1..]);
      StripEmpty(pieces[0]);
      PiecesAllSpaceCons(pieces[0], pieces[1..]);
      assert pieces == [pieces[0]] + pieces[1..];
    }
  }

  lemma AllSpaceCons(c: char, s: string)
    ensures AllSpace([c] + s) <==> IsSpace(c) && AllSpace(s)
  {
    if IsSpace(c) && AllSpace(s) {
      forall k | 0 <= k < |[c] + s| ensures IsSpace(([c] + s)[k]) {
        if k > 0 { assert ([c] + s)[k] == s[k - 1]; }
      }
    }
    if AllSpace([c] + s) {
      assert ([c] + s)[0] == c;
      forall k | 0 <= k < |s| ensures IsSpace(s[k]) {
        assert ([c] + s)[k + 1] == s[k];
      }
    }
  }

  lemma PiecesAllSpaceCons(p: string, ps: seq<string>)
    ensures PiecesAllSpace([p] + ps) <==> AllSpace(p) && PiecesAllSpace(ps)
  {
    if AllSpace(p) && PiecesAllSpace(ps) {
      forall i | 0 <= i < |[p] + ps| ensures AllSpace(([p] + ps)[i]) {
        if i > 0 { assert ([p] + ps)[i] == ps[i - 1]; }
      }
    }
    if PiecesAllSpace([p] + ps) {
      assert ([p] + ps)[0] == p;
      forall i | 0 <= i < |ps| ensures AllSpace(ps[i]) {
        assert ([p] + ps)[i + 1] == ps[i];
      }
    }
  }

  /** Every piece of a split is whitespace exactly when the text holds
      nothing but whitespace and separators. */
  lemma {:induction false} SplitAllSpace(s: string, sep: char)
    ensures PiecesAllSpace(Split(s, sep)) <==> SpaceOr(s, sep)
  {
    if |s| > 0 {
      SplitAllSpace(s[1..], sep);
      var rest := Split(s[1..], sep);
      assert forall k :: 0 < k < |s| ==> s[k] == s[1..][k - 1];
      assert SpaceOr(s, sep) <==> (IsSpace(s[0]) || s[0] == sep) && SpaceOr(s[1..], sep);
      if s[0] == sep {
        assert Split(s, sep) == [""] + rest;
        PiecesAllSpaceCons("", rest);
      } else {
        var head := [s[0]] + rest[0];
        assert Split(s, sep) == [head] + rest[1..];
        AllSpaceCons(s[0], rest[0]);
        PiecesAllSpaceCons(head, rest[1..]);
        PiecesAllSpaceCons(rest[0], rest[1..]);
        assert rest == [rest[0]] + rest[1..];
      }
    }
  }

  /** A comma splits the form's text into two parts parsed independently:
      the shifts of the whole are those of the part before the comma, then
      those of the part after it. */
  lemma ParseShiftsComma(a: string, c: string)
    ensures ParseShifts(a + [','] + c) == ParseShifts(a) + ParseShifts(c)
  {
    SplitConcat(a, c, ',');
    StrippedNonEmptyAppend(Split(a, ','), Split(c, ','));
  }

  /** Text without a comma is one piece: no shift if it is blank, otherwise
      the piece stripped. With `ParseShiftsComma` this fixes the parse of
      every text. */
  lemma ParseShiftsPiece(s: string)
    requires ',' !in s
    ensures ParseShifts(s) == if AllSpace(s) then [] else [Strip(s)]
  {
    SplitWithoutSep(s, [], ',');
    assert s + [] == s;
    StripEmpty(s);
    assert [s][1..] == [];
  }

  /** One step of `Split`: the first character either ends the first piece
      or joins it. */
  lemma SplitCons(ch: char, t: string, sep: char)
    ensures Split([ch] + t, sep) ==
      if ch == sep then [""] + Split(t, sep)
      else [[ch] + Split(t, sep)[0]] + Split(t, sep)[1..]
  {
    assert ([ch] + t)[0] == ch;
    assert ([ch] + t)[1..] == t;
  }

  /** Splitting at one separator occurrence splits the pieces there. */
  lemma {:induction false} SplitConcat(a: string, c: string, sep: char)
    ensures Split(a + [sep] + c, sep) == Split(a, sep) + Split(c, sep)
  {
    var y := Split(c, sep);
    if |a| == 0 {
      assert a + [sep] + c == [sep] + c;
      SplitCons(sep, c, sep);
    } else {
      var t := a[1..] + [sep] + c;
      assert a + [sep] + c == [a[0]] + t;
      assert a == [a[0]] + a[1..];
      SplitConcat(a[1..], c, sep);
      var x := Split(a[1..], sep);
      assert Split(t, sep) == x + y;
      SplitCons(a[0], t, sep);
      SplitCons(a[0], a[1..], sep);
      if a[0] == sep {
        assert Split([a[0]] + t, sep) == [""] + (x + y);
        assert Split(a, sep) == [""] + x;
        assert [""] + (x + y) == ([""] + x) + y;
      } else {
        assert Split([a[0]] + t, sep) == [[a[0]] + (x + y)[0]] + (x + y)[1..];
        assert Split(a, sep) == [[a[0]] + x[0]] + x[1..];
        ConsHeadAppend([a[0]], x, y);
      }
    }
  }

  /** Gluing a prefix onto the first piece commutes with appending pieces. */
  lemma ConsHeadAppend(h: string, x: seq<string>, y: seq<string>)
    requires |x| >= 1
    ensures [h + (x + y)[0]] + (x + y)[1..] == ([h + x[0]] + x[1..]) + y
  {
    assert (x + y)[0] == x[0];
    assert (x + y)[1..] == x[1..] + y;
  }

  lemma {:induction false} StrippedNonEmptyAppend(p: seq<string>, q: seq<string>)
    ensures StrippedNonEmpty(p + q) == StrippedNonEmpty(p) + StrippedNonEmpty(q)
  {
    if |p| == 0 {
      assert p + q == q;
    } else {
      assert (p + q)[0] == p[0];
      assert (p + q)[1..] == p[1..] + q;
      StrippedNonEmptyAppend(p[1..], q);
    }
  }

  lemma {:induction false} StrippedNonEmptyAvoids(pieces: seq<string>, c: char)
    requires forall i :: 0 <= i < |pieces| ==> c !in pieces[i]
    ensures forall i :: 0 <= i < |StrippedNonEmpty(pieces)| ==> c !in StrippedNonEmpty(pieces)[i]
  {
    if |pieces| > 0 {
      StrippedNonEmptyAvoids(pieces[1..], c);
      var t := Strip(pieces[0]);
      if c in t { StripChars(pieces[0], c); }
      var rest := StrippedNonEmpty(pieces[1..]);
      var r := StrippedNonEmpty(pieces);
      assert r == (if |t| > 0 then [t] else []) + rest;
    }
  }

  /** Every piece after the first preceded by one space. */
  function Indent(pieces: seq<string>): (r: seq<string>)
    ensures |r| == |pieces|
  {
    if |pieces| == 0 then [] else [[' '] + pieces[0]] + Indent(pieces[1..])
  }

  lemma {:induction false} JoinIndent(pieces: seq<string>)
    requires |pieces| >= 1
    ensures Join(Indent(pieces), [',']) == [' '] + Join(pieces, ", ")
    decreases |pieces|
  {
    if |pieces| > 1 {
      JoinIndent(pieces[1..]);
    }
  }

  /** The ", "-joined display of a shift list, read back through the form,
      gives the same list, provided each shift is non-empty, stripped and
      free of commas (which is what the form itself produces). */
  lemma {:induction false} ParseShiftsOfDisplay(shifts: seq<string>)
    requires |shifts| >= 1
    requires forall i :: 0 <= i < |shifts| ==> |shifts[i]| > 0 && IsStripped(shifts[i]) && ',' !in shifts[i]
    ensures ParseShifts(Join(shifts, ", ")) == shifts
  {
    var pieces := [shifts[0]] + Indent(shifts[1..]);
    assert Join(shifts, ", ") == Join(pieces, [',']) by {
      if |shifts| > 1 {
        JoinIndent(shifts[1..]);
        assert pieces[1..] == Indent(shifts[1..]);
      }
    }
    forall i | 0 <= i < |pieces| ensures ',' !in pieces[i] {
      if i > 0 { IndentAt(shifts[1..], i - 1); }
    }
    SplitJoin(pieces, ',');
    StripStripped(shifts[0]);
    assert pieces[1..] == Indent(shifts[1..]);
    StrippedNonEmptyIndent(shifts[1..]);
  }

  lemma {:induction false} IndentAt(pieces: seq<string>, i: nat)
    requires i < |pieces|
    ensures Indent(pieces)[i] == [' '] + pieces[i]
  {
    if i > 0 { IndentAt(pieces[1..], i - 1); }
  }

  lemma {:induction false} StrippedNonEmptyIndent(shifts: seq<string>)
    requires forall i :: 0 <= i < |shifts| ==> |shifts[i]| > 0 && IsStripped(shifts[i])
    ensures StrippedNonEmpty(Indent(shifts)) == shifts
  {
    if |shifts| > 0 {
      StripLeadingSpace(shifts[0]);
      StripStripped(shifts[0]);
      StrippedNonEmptyIndent(shifts[1..]);
      assert Indent(shifts)[1..] == Indent(shifts[1..]);
    }
  }

  predicate IsDigit(c: char)
  {
    '0' <= c <= '9'
  }

  /** Decimal digits, where single underscores may separate two digits. */
  predicate IsDigitRun(t: string)
  {
    |t| > 0 && IsDigit(t[0]) &&
    (|t| == 1 || IsDigitRun(t[1..]) || (|t| > 2 && t[1] == '_' && IsDigitRun(t[2..])))
  }

  /** The most digits `int()` converts from text: the default of
      `sys.get_int_max_str_digits()` since Python 3.11. Longer text is
      refused with a ValueError. */
  const MaxStrDigits := 4300

  /** The decimal digits in `t`, underscores and anything else not counted. */
  function DigitCount(t: string): (n: nat)
    ensures n <= |t|
  {
    if |t| == 0 then 0 else (if IsDigit(t[0]) then 1 else 0) + DigitCount(t[1..])
  }

  /** An optional `+` or `-`, then a digit run of at most `MaxStrDigits`
      digits. */
  predicate IsSignedDigitRun(t: string)
  {
    var body := if |t| > 0 && (t[0] == '+' || t[0] == '-') then t[1..] else t;
    IsDigitRun(body) && DigitCount(body) <= MaxStrDigits
  }

  /** Text that Python's `int()` turns into a number: a signed digit run
      with nothing but `int()`'s own whitespace on either side. */
  predicate IsIntLiteral(s: string)
  {
    exists i, j | 0 <= i <= j <= |s| ::
      AllIntSpace(s[..i]) && IsSignedDigitRun(s[i..j]) && AllIntSpace(s[j..])
  }

  /** A plain string of digits, no longer than the limit, is accepted as a
      number. */
  lemma DigitsAreIntLiteral(s: string)
    requires 0 < |s| <= MaxStrDigits
    requires forall i :: 0 <= i < |s| ==> IsDigit(s[i])
    ensures IsIntLiteral(s)
  {
    DigitsAreDigitRun(s);
    assert s[0..|s|] == s;
    assert AllIntSpace(s[..0]) && IsSignedDigitRun(s[0..|s|]) && AllIntSpace(s[|s|..]);
  }

  /** Counting digits distributes over concatenation. */
  lemma {:induction false} DigitCountAppend(a: string, c: string)
    ensures DigitCount(a + c) == DigitCount(a) + DigitCount(c)
  {
    if |a| == 0 {
      assert a + c == c;
    } else {
      assert (a + c)[0] == a[0];
      assert (a + c)[1..] == a[1..] + c;
      DigitCountAppend(a[1..], c);
    }
  }

  lemma {:induction false} DigitCountNone(t: string)
    requires forall k :: 0 <= k < |t| ==> !IsDigit(t[k])
    ensures DigitCount(t) == 0
  {
    if |t| > 0 {
      DigitCountNone(t[1..]);
    }
  }

  lemma {:induction false} DigitCountAll(t: string)
    requires forall k :: 0 <= k < |t| ==> IsDigit(t[k])
    ensures DigitCount(t) == |t|
  {
    if |t| > 0 {
      DigitCountAll(t[1..]);
    }
  }

  /** Whatever `int()` accepts has at most `MaxStrDigits` digits in it. */
  lemma IntLiteralDigitBound(s: string)
    requires IsIntLiteral(s)
    ensures DigitCount(s) <= MaxStrDigits
  {
    var i, j :| 0 <= i <= j <= |s| && AllIntSpace(s[..i]) && IsSignedDigitRun(s[i..j]) && AllIntSpace(s[j..]);
    var a, t, c := s[..i], s[i..j], s[j..];
    assert s == a + t + c;
    DigitCountAppend(a + t, c);
    DigitCountAppend(a, t);
    IntSpaceHasNoDigit(a);
    IntSpaceHasNoDigit(c);
    SignedDigitCount(t);
  }

  lemma IntSpaceHasNoDigit(t: string)
    requires AllIntSpace(t)
    ensures DigitCount(t) == 0
  {
    forall k | 0 <= k < |t| ensures !IsDigit(t[k]) {
      assert IsIntSpace(t[k]);
    }
    DigitCountNone(t);
  }

  /** A sign adds no digit. */
  lemma SignedDigitCount(t: string)
    requires IsSignedDigitRun(t)
    ensures DigitCount(t) <= MaxStrDigits
  {
    if |t| > 0 && (t[0] == '+' || t[0] == '-') {
      assert t == [t[0]] + t[1..];
      DigitCountAppend([t[0]], t[1..]);
    }
  }

  /** A run of more than `MaxStrDigits` digits is refused. */
  lemma TooManyDigits(s: string)
    requires |s| > MaxStrDigits
    requires forall i :: 0 <= i < |s| ==> IsDigit(s[i])
    ensures !IsIntLiteral(s)
  {
    DigitCountAll(s);
    if IsIntLiteral(s) {
      IntLiteralDigitBound(s);
    }
  }

  lemma {:induction false} DigitsAreDigitRun(s: string)
    requires |s| > 0
    requires forall i :: 0 <= i < |s| ==> IsDigit(s[i])
    ensures IsDigitRun(s)
  {
    if |s| > 1 {
      DigitsAreDigitRun(s[1..]);
    }
  }

  /** Nothing without a digit in it is accepted as a number. */
  lemma IntLiteralHasDigit(s: string)
    requires IsIntLiteral(s)
    ensures exists i :: 0 <= i < |s| && IsDigit(s[i])
  {
    var i, j :| 0 <= i <= j <= |s| && AllIntSpace(s[..i]) && IsSignedDigitRun(s[i..j]) && AllIntSpace(s[j..]);
    var t := s[i..j];
    if |t| > 0 && (t[0] == '+' || t[0] == '-') {
      assert IsDigit(t[1..][0]);
      assert IsDigit(s[i + 1]);
    } else {
      assert IsDigit(s[i]);
    }
  }

  /** `strip()` removes the ASCII separators U+001C to U+001F but `int()`
      does not skip them, so the two disagree on text led by one. */
  lemma SeparatorNotIntSpace()
    ensures Strip("\U{1C}12") == "12"
    ensures !IsIntLiteral("\U{1C}12")
  {
    var s := "\U{1C}12";
    assert SkipSpaces(s, 1) == 1;
    assert SkipSpaces(s, 0) == 1;
    assert TrimStart(s) == "12";
    assert SkipSpacesBack("12", 2) == 2;
    forall i, j | 0 <= i <= j <= |s|
      ensures !(AllIntSpace(s[..i]) && IsSignedDigitRun(s[i..j]) && AllIntSpace(s[j..]))
    {
      if i == 0 {
        assert s[i..j] == [] || s[i..j][0] == '\U{1C}';
      } else {
        assert s[..i][0] == '\U{1C}';
      }
    }
  }
}
